=== FILE: README.md ===
# EmulationStation core in Dafny

A Dafny model of four parts of EmulationStation, the front end for game
emulators, each with proofs about it:

- **The game library tree** (`es-app/src/FileData.{h,cpp}`). Every game or
  folder is a `FileData` node. A folder keeps its children twice: as an
  ordered sequence and as a map from file name to child. `addChild` and
  `removeChild` keep the two views in step. `getFilesRecursive` walks the
  subtree. `sort` orders every level of the subtree. Entries derive their
  display name, their clean name and their artwork paths.
  - `FileNames` models the names and paths of one entry.
  - `FileTree` models the tree.
  - Nodes live in a `map<NodeId, Node>` that stands in for the pointers.
  - A ghost rank map witnesses acyclicity, which the recursive walks need.
- **The MAME name lookup** (`es-app/src/MameNames.cpp`), module
  `MameNames`. A flat, NULL-terminated array of ROM-name/title pairs. It is
  counted by one loop and searched by binary search.
- **The text widget** (`es-core/src/components/TextComponent.cpp`), module
  `TextComponent`. It covers:
  - RGBA colours with a remembered base alpha, and opacity fading;
  - the auto-extent flags and the extent `calculateExtent` derives;
  - the re-layout of `onTextChanged`, with its single-line abbreviation,
    and the colour the text cache draws in;
  - the text-specific properties of `applyTheme`.
- **The animation slots of a GUI component**
  (`es-core/src/GuiComponent.h`), module `GuiComponent`. Four slots, each
  empty or holding one animation. The slot operations are a state machine
  over `seq<Option<Anim>>` that reports the boolean results and the
  callbacks each operation runs.

`Common` holds `Option` and `Result`. `Sorting` holds a generic insertion
sort under a strict weak order, which stands for `std::sort`.

Source assertions (`assert(mType == FOLDER)` and the like) are modelled as
`Failure` results, so the callers' obligations appear as error cases rather
than as preconditions. An animation accessor asked about an empty slot
yields `None`. The exception is the animation slot index, which is a
precondition (`slot < MAX_ANIMATIONS`).

Outside influences are parameters:
- the filesystem probe (`fileExists`);
- `PlatformIds::getCleanMameName` (`mameName`);
- `strToUpper` (`toUpper`);
- `Font::getPrevCursor` (`prevCursor`);
- font measurement (`Font.measure`, `Font.lineHeight`, `Font.sizeText`,
  `Font.wrappedHeight`), and the font a theme selects;
- the float scaling in `setOpacity` (`scale`, with the laws in
  `ScaleLaws`);
- the default metadata lists (`defaults`);
- the MAME table contents.

In these places the code behaves differently from what one might expect.
The model follows the code in each, and two of them are also corrected
under Findings:

- `sort` uses `std::sort`, which is not stable. The model therefore
  promises a sorted permutation at every level, not stability or
  idempotence.
- `removeChild` does not clear the removed node's parent pointer. A
  removed node therefore cannot be re-added elsewhere: its parent is
  stale, so `addChild`'s assertion fails. See Findings.
- The header's comment on `cancelAnimation` ("like stopAnimation, but
  doesn't call finishedCallback") says that `stopAnimation` does run the
  callback. The model follows the header.
- `setAnimation` replaces an occupant by deleting it. The header does
  not say what deletion does to the callback. Its comment on line 91
  ties deletion to completing and stopping, and lines 97-98 have both
  run the callback. From this the model infers that a replaced
  occupant's callback runs too. GuiComponent.cpp, which would settle
  it, is not part of this model.
- `getDisplayName` dereferences a null system (see Findings). Every
  caller inherits the fault where it reaches the call: the constructor
  only when the default name is empty, the artwork paths only when their
  metadata is empty, `getCleanName` always. These members return a
  `Result` and fail exactly there. With a system present, they agree
  with the corrected display name.
- `addChild` accepts a folder as its own child, and a folder under its
  own descendant. The recursive walks then never end
  (`FileTree.AddChildCanCloseCycle`).
- The text cache has two colour paths. A rebuild in `onTextChanged`
  draws with the component opacity as alpha. A recolour in
  `onColorChanged` (after `setColor` or `setOpacity`) draws with the
  text colour's own alpha, which is the base alpha scaled by the
  opacity. After `setOpacity(255)` on a colour with alpha 0x80, the text
  draws at 0x80 until the next re-layout, then at 0xFF
  (`TextComponent.CacheAlphaDependsOnPath`). The code does not say which
  alpha it intends, so this is not listed as a finding.

## Model

| member | source | states |
|---|---|---|
| `FileTree.Name` | es-app/src/FileData.h:41 | the name is the `name` metadata entry, and is empty exactly when that entry is missing or empty |
| `FileNames.DisplayNameAsWritten` | es-app/src/FileData.cpp:23-30 | the condition as written faults exactly when the entry has no system; with a system, the stem is translated iff the system is arcade or NeoGeo |
| `FileNames.NullSystemFaults` | es-app/src/FileData.cpp:26 | an entry without a system faults as written, while the corrected display name is the plain stem |
| `FileNames.DisplayName` | es-app/src/FileData.cpp:23-30 | the corrected display name agrees with the code whenever a system exists, and is the untranslated stem for any system that is neither arcade nor NeoGeo |
| `FileNames.StripGroupsSound` | es-app/src/FileData.h:31-32 | no `(`…`)` or `[`…`]` group survives; only characters of the input remain; text without an opening bracket is returned unchanged |
| `FileNames.StripGroupsKeepsPlainPrefix` | es-app/src/FileData.h:31-32 | text before the first opening bracket is kept verbatim in front of the stripped rest |
| `FileNames.StripGroupsDropsGroup` | es-app/src/FileData.h:31-32 | a closed group is removed whole: `a + (b) + c` strips to `a` followed by the stripped `c`, and likewise for `[b]` |
| `FileNames.RemoveParenthesis` | es-app/src/FileData.h:31-32 | the result has no bracketed group, uses only characters of the input and ends in no blank; text without brackets only loses trailing blanks |
| `FileNames.RemoveParenthesisDropsTags` | es-app/src/FileData.h:31-32 | a title followed by a region tag and a dump tag, `title (region) [dump]`, cleans to exactly the title |
| `FileNames.RemoveParenthesisExample` | es-app/src/FileData.h:31-32 | `Super Game (USA) [!]` cleans to `Super Game` |
| `FileNames.CleanName` | es-app/src/FileData.cpp:32-35 | faults exactly when the entry has no system, as the display name it reads does; otherwise the clean name is exactly the display name with its bracketed groups removed and trailing blanks trimmed |
| `FileNames.LocalAsset` | es-app/src/FileData.cpp:94-103 | the `.png` file named `<stem>/images/<display name><suffix>` is taken if it exists, else the `.jpg` one if it exists; the result is empty exactly when neither exists |
| `FileNames.ImagePath` | es-app/src/FileData.cpp:87-107 | the `image` metadata wins when set; otherwise the call faults exactly when there is no system, and else yields the local image found for the display name |
| `FileNames.MarqueePath` | es-app/src/FileData.cpp:65-85 | the `marquee` metadata wins when set; otherwise the call faults exactly when there is no system, and else yields the local marquee found for the display name |
| `FileNames.ThumbnailPath` | es-app/src/FileData.cpp:37-63 | the `thumbnail` metadata wins; the call faults exactly when thumbnail and image metadata are both empty and there is no system; otherwise the result is the image metadata, an existing file or empty |
| `FileNames.ThumbnailFallsBackToImage` | es-app/src/FileData.cpp:42-59 | without a thumbnail entry, the thumbnail path is exactly the image path |
| `FileTree.TypeBitsAreDisjoint` | es-app/src/FileData.h:13-17 | GAME and FOLDER are distinct bits: their union selects every node, and each bit selects exactly its own type |
| `FileTree.NewNode` | es-app/src/FileData.cpp:7-13 | construction faults exactly when the default name is empty and there is no system; otherwise the node has no parent and no children, its name is the default name or else its display name (so non-empty whenever the display name is), and no other metadata key changes |
| `FileTree.SyncedNamesDistinct` | es-app/src/FileData.h:45-46 | in a node whose two child views agree, the children's file names are pairwise distinct |
| `FileTree.ChildViewsAgree` | es-app/src/FileData.h:45-46 | in a well-formed tree the filename map holds exactly the nodes of the child sequence |
| `FileTree.AddChild` | es-app/src/FileData.cpp:128-140 | fails iff the receiver is not a folder or the node already has a parent; a duplicate file name leaves the tree unchanged; otherwise the node is appended, filed under its name and pointed at its new parent, and nothing else changes |
| `FileTree.AddChildPreservesWellFormed` | es-app/src/FileData.cpp:128-140 | adding keeps the tree closed and synced, keeps games childless, and keeps every child pointing at its lister |
| `FileTree.AddChildCanCloseCycle` | es-app/src/FileData.cpp:128-140 | a well-formed one-folder tree accepts the folder as its own child, and the result has no acyclicity witness |
| `FileTree.RemoveChild` | es-app/src/FileData.cpp:142-159 | fails iff the receiver is not a folder, the node names another parent, or the node is missing from the sequence; otherwise exactly the first occurrence is cut, the multiset loses one copy of the node, its name leaves the map, and its parent pointer is kept |
| `FileTree.RemoveChildPreservesWellFormed` | es-app/src/FileData.cpp:142-159 | removing keeps the tree well formed |
| `FileTree.RemovedNodeStaysAttached` | es-app/src/FileData.cpp:15-18 | after a removal, adding the node to any folder fails with a stale parent, and the destructor's second removal fails as a missing child |
| `FileTree.DetachChild` | es-app/src/FileData.cpp:142-159 | the corrected removal succeeds exactly when `removeChild` does; every node but the removed one is exactly as `removeChild` leaves it, and the removed one differs only in its cleared parent |
| `FileTree.DetachedNodeCanMove` | es-app/src/FileData.cpp:128-159 | a detached node can be added to any folder; it then points there and is no longer listed by its old folder |
| `FileTree.FilesRecursive` | es-app/src/FileData.cpp:109-126 | every node listed is in the tree and matches the type mask |
| `FileTree.FilesRecursiveMembers` | es-app/src/FileData.cpp:109-126 | a node is listed iff it is a strict descendant of the receiver and matches the mask |
| `FileTree.FilesRecursiveExcludesSelf` | es-app/src/FileData.cpp:113-123 | the receiver never lists itself |
| `FileTree.FilesRecursiveIsFilteredPreOrder` | es-app/src/FileData.cpp:113-123 | a masked walk is the unmasked pre-order walk with the non-matching nodes left out |
| `FileTree.ArrangeLevel` | es-app/src/FileData.cpp:163-172 | one level ends as a permutation of itself, sorted ascending or reverse-sorted when descending |
| `FileTree.SortTree` | es-app/src/FileData.cpp:161-178 | only the order of children changes; each level keeps its multiset of children; each level of the subtree is sorted in the requested direction; nodes outside the subtree are untouched |
| `FileTree.DescendingIsReversedAscending` | es-app/src/FileData.cpp:171-172 | each level sorted descending is exactly the reverse of the same level sorted ascending, and the other way round |
| `FileTree.SortTreeKeepsRank` | es-app/src/FileData.cpp:161-173 | sorting creates no cycle: the acyclicity witness of the input still holds |
| `FileTree.SortTreeKeepsWellFormed` | es-app/src/FileData.cpp:161-173 | sorting keeps the tree well formed, the filename maps included |
| `MameNames.TitleCountUnique` | es-app/src/MameNames.cpp:9-19 | the number of pairs before the NULL key is determined by the table |
| `MameNames.TitleCount` | es-app/src/MameNames.cpp:9-19 | the count is the number of pairs before the first NULL key, all of which are present |
| `MameNames.StrcmpZeroIff` | es-app/src/MameNames.cpp:41 | the comparison is zero exactly for equal strings |
| `MameNames.StrcmpAntisymmetric` | es-app/src/MameNames.cpp:41-50 | swapping the operands flips the sign of the comparison |
| `MameNames.StrcmpTransitive` | es-app/src/MameNames.cpp:41-50 | the comparison is transitive, so sorted keys form a chain the search can bisect |
| `MameNames.RealName` | es-app/src/MameNames.cpp:22-55 | the result is the input or a value paired with a key equal to the input; with no matching key it is the input; with ascending keys, a present key always yields its own value |
| `TextComponent.WithAlpha` | es-core/src/components/TextComponent.cpp:65-69 | the result keeps the colour channels and carries exactly the given alpha |
| `TextComponent.RgbAlphaDetermineColor` | es-core/src/components/TextComponent.cpp:65-69 | a colour is determined by its channels and its alpha |
| `TextComponent.SetColor` | es-core/src/components/TextComponent.cpp:40-45 | the text colour is set, its alpha is remembered as the base alpha, and an existing cache is recoloured with it; nothing else changes |
| `TextComponent.SetBackgroundColor` | es-core/src/components/TextComponent.cpp:48-52 | the background colour is set and its alpha remembered; nothing else changes |
| `TextComponent.Recolor` | es-core/src/components/TextComponent.cpp:198-204 | an existing cache keeps its content and takes the given colour; a missing cache stays missing |
| `TextComponent.SetOpacity` | es-core/src/components/TextComponent.cpp:60-75 | both colours keep their channels, their alphas become the scaled base alphas, an existing cache takes the new text colour, and the component opacity is recorded; nothing else changes |
| `TextComponent.GetOpacity` | es-core/src/components/TextComponent.cpp:77-80 | the reported opacity is the text colour's alpha |
| `TextComponent.FadeRestoresColors` | es-core/src/components/TextComponent.cpp:60-75 | a fade never raises the alpha above the base, and fading to zero and back to full restores exactly the colours that were set, in the state and in the cache |
| `TextComponent.GetOpacityAfterSet` | es-core/src/components/TextComponent.cpp:60-80 | after full opacity the reported opacity is the base alpha, after zero opacity it is zero |
| `TextComponent.OnSizeChanged` | es-core/src/components/TextComponent.cpp:27-31 | each extent becomes automatic iff the size is zero along it; the call faults iff there is no font and a dimension is zero; a zero width takes the measured size of the shown text, a zero height alone the wrapped height at the kept width, and a non-zero size is kept; the cache is rebuilt for the result; nothing else changes |
| `TextComponent.CalculateExtent` | es-core/src/components/TextComponent.cpp:140-151 | an automatic width takes the whole measured size of the shown text; an automatic height alone takes the wrapped height at the fixed width; a fixed size is kept; nothing but the size changes |
| `TextComponent.CalculateExtentSettles` | es-core/src/components/TextComponent.cpp:140-151 | calculating the extent again changes nothing |
| `TextComponent.TextChanged` | es-core/src/components/TextComponent.cpp:153-196 | faults iff there is no font and an extent is automatic; otherwise only the size and the cache change: the size as `calculateExtent` computes it (kept without a font), the cache as the layout of the resulting state |
| `TextComponent.TextChangedSettles` | es-core/src/components/TextComponent.cpp:153-196 | laying out the result of a layout again changes nothing |
| `TextComponent.FirstLine` | es-core/src/components/TextComponent.cpp:171-172 | the single line is a prefix without newline that stops exactly at the first newline |
| `TextComponent.TrimToFit` | es-core/src/components/TextComponent.cpp:183-188 | the line is kept whole iff it is empty or fits with the ellipsis; otherwise the kept text is a prefix that fits with the ellipsis or is empty, reached by one cursor step back from a longer prefix of the line that still overflows, so trimming stops at the first cut that fits |
| `TextComponent.Abbreviate` | es-core/src/components/TextComponent.cpp:180-188 | the loop ends with the text `TrimToFit` describes |
| `TextComponent.CacheColor` | es-core/src/components/TextComponent.cpp:192-194 | the cache colour has the text colour's channels and the component opacity as its alpha |
| `TextComponent.Layout` | es-core/src/components/TextComponent.cpp:153-196 | there is no cache iff there is no font or no text; a multi-line box wraps the whole text; a single-line box keeps the first line, abbreviated to exactly the text `TrimToFit` keeps plus `...` when it overflows a fixed width or a newline was cut |
| `TextComponent.CacheAlphaDependsOnPath` | es-core/src/components/TextComponent.cpp:192-204 | after a fade to full opacity on a base alpha of 0x80, an existing cache draws at alpha 0x80, while the next re-layout builds it at 0xFF |
| `TextComponent.CutNewlineForcesEllipsis` | es-core/src/components/TextComponent.cpp:169-190 | in a single-line box of non-zero width, text that is not upper-cased, does not start with a newline and contains one is always abbreviated to a prefix of its first line plus `...` (a leading newline leaves an empty line, which is not abbreviated) |
| `TextComponent.ParseAlignment` | es-core/src/components/TextComponent.cpp:247-258 | a recognised string names the alignment it parses to; an unrecognised one names no alignment and is ignored |
| `TextComponent.ParseAlignmentRoundTrip` | es-core/src/components/TextComponent.cpp:250-255 | every alignment's name parses back to it |
| `TextComponent.ThemeProperties` | es-core/src/components/TextComponent.cpp:238-267 | the background is drawn iff colours are requested and a background colour is themed; each requested, present property is applied, an unknown alignment ignored; opacity, size and extent flags are kept, and a cache exists iff one existed |
| `TextComponent.ThemePropertiesIdempotent` | es-core/src/components/TextComponent.cpp:238-267 | setting the same theme properties twice equals setting them once |
| `TextComponent.ApplyTheme` | es-core/src/components/TextComponent.cpp:228-270 | no element means no change; the call faults iff an extent is automatic and either the final font is missing or the old font is missing and a layout setter runs before it; otherwise the properties are those `ThemeProperties` sets, the extent is calculated for the final font, the cache is the layout of the result, and the auto flags and opacity are kept; when the call succeeds without a final font, the size is kept |
| `TextComponent.ApplyColors` | es-core/src/components/TextComponent.cpp:238-245 | the colour part of the theme, with the background switch off unless a themed background colour is applied |
| `TextComponent.ApplyAlignment` | es-core/src/components/TextComponent.cpp:247-258 | only a recognised, requested alignment changes the alignment |
| `TextComponent.ApplyTextProperties` | es-core/src/components/TextComponent.cpp:260-267 | text, forced upper case and line spacing are each taken from the element when requested and present |
| `TextComponent.ApplyThemeIdempotent` | es-core/src/components/TextComponent.cpp:228-270 | applying the same theme element again, with the font the first application left, changes nothing |
| `GuiComponent.IsAnimationPlaying` | es-core/src/GuiComponent.h:92 | a slot plays exactly when stopping it, or cancelling it, would report success |
| `GuiComponent.IsAnimationReversed` | es-core/src/GuiComponent.h:93 | there is no answer exactly when the slot is empty, i.e. when stopping it would report false; otherwise the animation is reversed exactly when finishing it applies the value 0 |
| `GuiComponent.GetAnimationTime` | es-core/src/GuiComponent.h:94 | there is no time exactly when the slot is empty, i.e. when stopping it would report false; otherwise the elapsed time reaches delay plus duration exactly when a zero advance completes the animation, and any advance that keeps it adds its step to this time |
| `GuiComponent.PlayingAfterSlotOperations` | es-core/src/GuiComponent.h:91-99 | after setting, the slot plays; after stopping, cancelling or finishing it does not; after an advance it plays iff it played and its time plus the step is short of delay plus duration; setting, stopping or advancing one slot does not change whether another plays |
| `GuiComponent.SetAnimation` | es-core/src/GuiComponent.h:95 | the slot holds the new animation at time zero; a previous occupant's callback runs; the other slots are untouched |
| `GuiComponent.SetAnimationDefaults` | es-core/src/GuiComponent.h:95 | with the default arguments, slot 0 plays the animation forwards, without delay or callback |
| `GuiComponent.StopAnimation` | es-core/src/GuiComponent.h:91-97 | returns true iff the slot was occupied; the slot is emptied and the occupant's callback runs |
| `GuiComponent.CancelAnimation` | es-core/src/GuiComponent.h:97 | returns true iff the slot was occupied; the slot is emptied and no callback runs |
| `GuiComponent.FinishAnimation` | es-core/src/GuiComponent.h:98 | returns true iff the slot was occupied; the end value is applied, the callback runs and the slot is emptied |
| `GuiComponent.FinishIsAdvanceToEnd` | es-core/src/GuiComponent.h:98-99 | finishing equals advancing by any time that completes the animation, in slots, result, callbacks and applied value |
| `GuiComponent.AdvanceAnimation` | es-core/src/GuiComponent.h:91-99 | returns true iff the slot was occupied; a completed animation is removed and runs its callback; an unfinished one only gains elapsed time; other slots are untouched |
| `GuiComponent.SetThenAdvance` | es-core/src/GuiComponent.h:92-99 | a new animation plays from time zero in its direction, and an advance short of completion adds the step to its time without running any callback |
| `GuiComponent.CancelIsStopWithoutCallback` | es-core/src/GuiComponent.h:96-97 | cancel and stop leave the same slots and result; only stop runs the callback |
| `GuiComponent.SplitAdvanceFiresOnce` | es-core/src/GuiComponent.h:91-99 | advancing in two steps that cover the remaining time runs the callback exactly once and empties the slot |
| `GuiComponent.UpdateSelf` | es-core/src/GuiComponent.h:134 | every slot is advanced by the same time: a slot ends empty iff it was empty or its animation completed, and survivors have the added time |
| `GuiComponent.UpdateSelfIsFourAdvances` | es-core/src/GuiComponent.h:134 | an update equals advancing slots 0 to 3 in turn by the same time: the same slots, the callbacks in slot order, and the value applied by the highest slot that applied one |
| `GuiComponent.StopAllAnimations` | es-core/src/GuiComponent.h:100 | every slot ends empty, and every occupant's callback is among those run |
| `GuiComponent.StopAllIsFourStops` | es-core/src/GuiComponent.h:100 | stopping everything equals stopping slots 0 to 3 in turn: the same empty slots and the same callbacks in the same order |
| `GuiComponent.CancelAllAnimations` | es-core/src/GuiComponent.h:101 | every slot ends empty and no callback runs |
| `GuiComponent.Fresh` | es-core/src/GuiComponent.h:148-152 | a new component has no rotation, unit scale and zero z-indices, and no slot plays an animation |
| `GuiComponent.FreshComponentIsIdle` | es-core/src/GuiComponent.h:97-101 | on a new component, advancing, finishing and cancelling report false and stopping everything runs nothing |
| `Sorting.SortSeq` | es-app/src/FileData.cpp:163 | the result is a permutation of the input, sorted under the comparator |
| `Sorting.ReverseOfSorted` | es-app/src/FileData.cpp:171-172 | reversing a sorted sequence gives a reverse-sorted one |
| `Sorting.ReverseInvolutive` | es-app/src/FileData.cpp:171-172 | reversing twice gives back the sequence |

## Left out

- `fileTypeToString`, `stringToFileType`, the `SortType` table and the comparators of FileSorts: the comparators are parameters, constrained only to be strict weak orders.
- `removeParenthesis` (es-app/src/Util.cpp) is not part of this model. `StripGroups` removes non-greedy `(`…`)` and `[`…`]` groups scanning left to right, followed by trimming of trailing blanks. Its exact whitespace handling is not modelled beyond that.
- MetaData.h (default metadata lists, `MetaDataList::get`) is not part of this model: the defaults are a parameter, and a missing key reads as empty.
- `FileTree.FilesRecursive`, `FileTree.SortTree`: both ask for an acyclicity witness (`Ranked`). `addChild` does not prevent a folder being added under itself or its own descendant (`FileTree.AddChildCanCloseCycle`), and on such a tree the source recurses without end.
- `FileTree.SortTree`: states sortedness and permutation per level, not the exact order `std::sort` produces for elements that compare equal (unspecified in the source).
- The destructor's `mChildren.clear()` and memory release: no ownership is modelled.
- `MameNames.RealName`: the keys' ascending order is a hypothesis of the third ensures, not a requirement. The table is external data whose order the code trusts. Without it only the first two ensures hold.
- `MameNames.RealName`: requires `ValuesPresent`, so a table whose present key is paired with a NULL value is excluded; on such a key the code would return that NULL (MameNames.cpp:52), which the model's `string` result cannot express.
- `MameNames.RealName`: `strcmp` is modelled by its sign only (`Strcmp` returns -1, 0 or 1), which is all the search uses. The `static` caching of the title count becomes the `count` parameter. The `int` overflow of `iStart + iEnd` is not modelled, since the table is far smaller than 2^30 pairs.
- `Font::sizeText`, `Font::sizeWrappedText`, `wrapText` and `buildTextCache`: fonts are external. A font is its line height and its measures. `Layout` records the string and colour handed to the cache builder, plus whether it would be wrapped.
- `TextComponent.OnSizeChanged`: the size arrives through `GuiComponent::setSize`, which is not part of this model; the state's `width` and `height` stand for `mSize`. A null font is a fault only where `calculateExtent` dereferences it.
- `TextComponent.SetOpacity`: the float expression `(float)opacity / 255.f * base` truncated to a byte is a parameter `scale`. It is constrained by `ScaleLaws` (zero gives zero, 255 keeps the base, never above the base) rather than computed in floating point.
- The TextComponent constructors: the default constructor leaves `mColorOpacity` and `mBgColorOpacity` uninitialised, so no initial state is modelled, and a fade before the first `setColor` scales an indeterminate base.
- `render`: drawing.
- `TextComponent.SetOpacity`: that the component opacity is recorded is assumed of `GuiComponent::setOpacity` (TextComponent.cpp:74), whose body is in GuiComponent.cpp, which is not part of this model.
- `TextComponent.ApplyTheme`: the ThemeFlags bit mask is a set of flags. `Font::getFromTheme` is the `font` parameter. `GuiComponent::applyTheme` (line 230: position, size, origin) is not part of this model; a themed size would reach `onSizeChanged`, which `OnSizeChanged` models on its own. The setters called before `setFont` each lay the text out with the old font; the final `setFont` lays it out again from the same fields, so of those earlier layouts only their faults are kept.
- `GuiComponent.AdvanceAnimation`: AnimationController is not part of this model. Completion is taken as elapsed time reaching delay plus duration, and the applied parameter as the elapsed fraction after the delay.
- `GuiComponent.FinishAnimation`: the header says it calls `update(1.f)`. The model records the end value of the animation's direction (0 when reversed), as a reversed controller maps t = 1 to 0.
- `GuiComponent.Fresh`: `mAnimationMap` (GuiComponent.h:161) has no initialiser in the header; that the slots start empty is assumed of the constructor in GuiComponent.cpp, which is not part of this model.
- `GuiComponent.SetAnimation`: finished callbacks are opaque `CallbackId`s recorded in the order they run; what a callback does is not modelled, including a callback that re-enters `setAnimation` or `stopAnimation` on the same component while the slot is being cleared.
- `GuiComponent.UpdateSelf`, `GuiComponent.AdvanceAnimation`, `GuiComponent.GetAnimationTime`: the `int deltaTime` of `updateSelf` (GuiComponent.h:134), the `unsigned int time` of `advanceAnimation` (h:99) and the `int` result of `getAnimationTime` (h:94) become `nat`; negative deltas and 32-bit wrap-around of the elapsed time are not modelled.
- `GuiComponent.IsAnimationReversed`, `GuiComponent.GetAnimationTime`: their bodies are in GuiComponent.cpp, which is not part of this model. The header does not say what an empty slot gives; the model yields `None` there, standing for whatever the implementation does with the missing animation (a failed assertion or a null dereference). Every slot operation requires `slot < MAX_ANIMATIONS`, which the header's `unsigned char slot` does not enforce.
- Transforms, z-ordering, child components, help prompts, focus and `isProcessing` of GuiComponent: float matrices and UI plumbing.

## Findings

| source | as written | input that shows it | evidently intended | confidence | as-written member | corrected member |
|---|---|---|---|---|---|---|
| es-app/src/FileData.cpp:26 | the guard `mSystem && arcade or mSystem->neogeo` groups the null test with the arcade test only, so the NeoGeo test dereferences a null system | any entry whose system pointer is NULL and whose display name is asked for (e.g. during construction, line 12) | the null test guarding both platform tests: without a system, the plain stem | high (not executed) | `FileNames.DisplayNameAsWritten` (`FileNames.NullSystemFaults`) | `FileNames.DisplayName` |
| es-app/src/FileData.cpp:142-159 | `removeChild` cuts the child from both views but never resets `file->mParent` | remove a child from its folder, then add it to another folder (fails `file->getParent() == NULL`), or destroy it (its destructor calls `removeChild` on the old folder, which meets `assert(false)`) | the removed node becomes parentless, so it can be moved or destroyed | medium (not executed) | `FileTree.RemoveChild` (`FileTree.RemovedNodeStaysAttached`) | `FileTree.DetachChild` (`FileTree.DetachedNodeCanMove`) |

=== FILE: common.dfy ===
/** Failure-compatible wrappers shared by every module of the model. */
module Common {

  /** A value that may be absent: the model's stand-in for a nullable pointer. */
  datatype Option<+T> = None | Some(value: T)

  /** The outcome of an operation whose source asserts a precondition:
      the asserted condition becomes an explicit error value. */
  datatype Result<+R, +E> = Success(value: R) | Failure(error: E) {
    predicate IsFailure() {
      Failure?
    }

    function PropagateFailure<U>(): Result<U, E>
      requires Failure?
    {
      Failure(error)
    }

    function Extract(): R
      requires Success?
    {
      value
    }
  }
}

=== FILE: file_names.dfy ===
/** Name and path derivation for one entry of the game library
    (es-app/src/FileData.h and FileData.cpp): the file name that keys a
    folder's lookup map, the display name with arcade name translation,
    the clean name without bracketed groups, and the metadata fallbacks of
    the artwork paths. */
module FileNames {
  import opened Common

  /** A filesystem path, split the way boost::filesystem splits it:
      `filename() == stem() + extension()`. */
  datatype Path = Path(directory: string, stem: string, extension: string)

  /** `path.filename()`: the key of a folder's lookup map. */
  function FileName(p: Path): string {
    p.stem + p.extension
  }

  datatype Platform = Arcade | NeoGeo | OtherPlatform(code: nat)

  /** The owning system, reduced to the one question the entry asks it. */
  datatype SystemInfo = SystemInfo(platforms: set<Platform>)

  predicate HasPlatform(system: SystemInfo, p: Platform) {
    p in system.platforms
  }

  /** The owning system is tagged as arcade or NeoGeo, the two platforms
      whose file stems are ROM names in need of translation. */
  predicate IsArcadeLike(system: Option<SystemInfo>) {
    system.Some? && (HasPlatform(system.value, Arcade) || HasPlatform(system.value, NeoGeo))
  }

  datatype Fault = NullSystemDereference

  /** `getDisplayName` as written: the condition parses as
      `(mSystem && arcade) || mSystem->neogeo`, so a missing system is
      dereferenced by the second operand. */
  function DisplayNameAsWritten(path: Path, system: Option<SystemInfo>, mameName: string -> string): (r: Result<string, Fault>)
    ensures r.Failure? <==> system.None?
    ensures r.Success? ==> r.value == (if IsArcadeLike(system) then mameName(path.stem) else path.stem)
  {
    if system.Some? && HasPlatform(system.value, Arcade) then Success(mameName(path.stem))
    else if system.None? then Failure(NullSystemDereference)
    else if HasPlatform(system.value, NeoGeo) then Success(mameName(path.stem))
    else Success(path.stem)
  }

  /** A missing system makes the source fault where the guard on it was
      evidently meant to fall back to the plain stem. */
  lemma NullSystemFaults(path: Path, mameName: string -> string)
    ensures DisplayNameAsWritten(path, None, mameName) == Failure(NullSystemDereference)
    ensures DisplayName(path, None, mameName) == path.stem
  {
  }

  /** `getDisplayName` as intended: the file stem, translated through the
      MAME name table when the owning system is arcade-like. The translation
      itself (PlatformIds::getCleanMameName) is a parameter. */
  function DisplayName(path: Path, system: Option<SystemInfo>, mameName: string -> string): (r: string)
    ensures system.Some? ==> DisplayNameAsWritten(path, system, mameName) == Success(r)
    ensures !IsArcadeLike(system) ==> r == path.stem
  {
    if IsArcadeLike(system) then mameName(path.stem) else path.stem
  }

  function Closer(open: char): char
    requires open == '(' || open == '['
  {
    if open == '(' then ')' else ']'
  }

  /** The text holds no `(` that is followed, anywhere later, by a `)`,
      and no `[` followed later by a `]`: no bracketed group survives. */
  ghost predicate NoGroups(s: string) {
    forall i, j :: 0 <= i < j < |s| ==> !(s[i] == '(' && s[j] == ')') && !(s[i] == '[' && s[j] == ']')
  }

  /** The position of the first `c` at or after `from`, or `|s|` when
      there is none. */
  function IndexFrom(s: string, c: char, from: nat): (k: nat)
    requires from <= |s|
    ensures from <= k <= |s|
    ensures k < |s| ==> s[k] == c
    decreases |s| - from
  {
    if from == |s| || s[from] == c then from
    else IndexFrom(s, c, from + 1)
  }

  /** The scan passes over no `c`. */
  lemma {:induction false} IndexFromSkips(s: string, c: char, from: nat)
    requires from <= |s|
    ensures forall m :: from <= m < IndexFrom(s, c, from) ==> s[m] != c
    decreases |s| - from
  {
    if from < |s| && s[from] != c {
      IndexFromSkips(s, c, from + 1);
    }
  }

  /** The scan finds the first occurrence at or after `from`. */
  lemma {:induction false} IndexFromFirst(s: string, c: char, from: nat, k: nat)
    requires from <= k < |s| && s[k] == c
    requires forall m :: from <= m < k ==> s[m] != c
    ensures IndexFrom(s, c, from) == k
    decreases k - from
  {
    if from < k {
      IndexFromFirst(s, c, from + 1, k);
    }
  }

  /** Drops every group that opens with `(` or `[` and runs to the first
      matching closer after it (non-greedy), scanning left to right. */
  function StripGroups(s: string): string
    decreases |s|
  {
    if s == [] then []
    else if GroupEnd(s) < |s| then StripGroups(s[GroupEnd(s) + 1..])
    else [s[0]] + StripGroups(s[1..])
  }

  /** Where a group opening at the front of the text closes: the position
      of the first matching closer, or `|s|` when the text does not open
      with a closed group. */
  function GroupEnd(s: string): (k: nat)
    requires s != []
    ensures 0 < k <= |s|
    ensures k < |s| ==> (s[0] == '(' || s[0] == '[') && s[k] == Closer(s[0])
  {
    if s[0] == '(' || s[0] == '[' then IndexFrom(s, Closer(s[0]), 1) else |s|
  }

  /** What the scan leaves: no bracketed group survives, only characters
      of the input remain, and text without an opener is kept whole. */
  lemma StripGroupsSound(s: string)
    ensures multiset(StripGroups(s)) <= multiset(s)
    ensures NoGroups(StripGroups(s))
    ensures '(' !in s && '[' !in s ==> StripGroups(s) == s
  {
    StripGroupsKeepsChars(s);
    StripGroupsLeavesNoGroups(s);
    if '(' !in s && '[' !in s {
      StripGroupsKeepsPlainPrefix(s, []);
      assert s + [] == s;
    }
  }

  lemma {:induction false} StripGroupsKeepsChars(s: string)
    ensures multiset(StripGroups(s)) <= multiset(s)
    decreases |s|
  {
    if s == [] {
    } else if GroupEnd(s) < |s| {
      var k := GroupEnd(s);
      StripGroupsKeepsChars(s[k + 1..]);
      assert s == s[..k + 1] + s[k + 1..];
    } else {
      StripGroupsKeepsChars(s[1..]);
      assert s == [s[0]] + s[1..];
    }
  }

  lemma {:induction false} StripGroupsLeavesNoGroups(s: string)
    ensures NoGroups(StripGroups(s))
    decreases |s|
  {
    if s == [] {
    } else if GroupEnd(s) < |s| {
      StripGroupsLeavesNoGroups(s[GroupEnd(s) + 1..]);
    } else {
      var rest := StripGroups(s[1..]);
      StripGroupsLeavesNoGroups(s[1..]);
      StripGroupsKeepsChars(s[1..]);
      UnclosedOpener(s);
      NoGroupsCons(s[0], rest);
    }
  }

  /** An opener at the front that closes no group has no closer after it. */
  lemma UnclosedOpener(s: string)
    requires s != [] && GroupEnd(s) == |s|
    ensures s[0] == '(' ==> ')' !in multiset(s[1..])
    ensures s[0] == '[' ==> ']' !in multiset(s[1..])
  {
    if s[0] == '(' || s[0] == '[' {
      IndexFromSkips(s, Closer(s[0]), 1);
      assert forall x :: x in s[1..] ==> x != Closer(s[0]);
    }
  }

  /** Text before the first opener is kept as it is, in front of the
      stripped rest. */
  lemma {:induction false} StripGroupsKeepsPlainPrefix(a: string, c: string)
    requires '(' !in a && '[' !in a
    ensures StripGroups(a + c) == a + StripGroups(c)
    decreases |a|
  {
    if a == [] {
      assert a + c == c;
    } else {
      var x, t := a[0], a[1..];
      assert a == [x] + t;
      assert '(' !in t && '[' !in t;
      StripGroupsKeepsPlainPrefix(t, c);
      StripGroupsConsPrefix(x, t, c);
    }
  }

  /** A plain character in front of a prefix that is kept is kept too. */
  lemma StripGroupsConsPrefix(x: char, t: string, c: string)
    requires x != '(' && x != '['
    requires StripGroups(t + c) == t + StripGroups(c)
    ensures StripGroups([x] + t + c) == [x] + t + StripGroups(c)
  {
    assert [x] + t + c == [x] + (t + c);
    StripGroupsPlainCons(x, t + c);
    assert [x] + (t + StripGroups(c)) == [x] + t + StripGroups(c);
  }

  /** One step of the scan over a character that opens no group. */
  lemma StripGroupsPlainCons(x: char, rest: string)
    requires x != '(' && x != '['
    ensures StripGroups([x] + rest) == [x] + StripGroups(rest)
  {
    assert ([x] + rest)[1..] == rest;
  }

  /** One step of the scan over a group that is closed later. */
  lemma StripGroupsGroupStep(s: string)
    requires s != [] && GroupEnd(s) < |s|
    ensures StripGroups(s) == StripGroups(s[GroupEnd(s) + 1..])
  {
  }

  /** A closed group is dropped whole: the text before it is kept and the
      text after it is stripped in turn. */
  lemma StripGroupsDropsGroup(a: string, open: char, b: string, c: string)
    requires '(' !in a && '[' !in a
    requires open == '(' || open == '['
    requires Closer(open) !in b
    ensures StripGroups(a + [open] + b + [Closer(open)] + c) == a + StripGroups(c)
  {
    var g := [open] + b + [Closer(open)] + c;
    assert a + [open] + b + [Closer(open)] + c == a + g;
    StripGroupsKeepsPlainPrefix(a, g);
    StripGroupsLeadingGroup(open, b, c);
  }

  /** A group at the very front is dropped whole. */
  lemma StripGroupsLeadingGroup(open: char, b: string, c: string)
    requires open == '(' || open == '['
    requires Closer(open) !in b
    ensures StripGroups([open] + b + [Closer(open)] + c) == StripGroups(c)
  {
    var g := [open] + b + [Closer(open)] + c;
    GroupCloserFound(open, b, c);
    StripGroupsGroupStep(g);
    assert g[|b| + 2..] == c;
  }

  /** The scan for the closer of a front group stops right after its body. */
  lemma GroupCloserFound(open: char, b: string, c: string)
    requires open == '(' || open == '['
    requires Closer(open) !in b
    ensures var g := [open] + b + [Closer(open)] + c;
      GroupEnd(g) == |b| + 1
  {
    var g := [open] + b + [Closer(open)] + c;
    assert g[|b| + 1] == Closer(open);
    assert forall m :: 1 <= m < |b| + 1 ==> g[m] == b[m - 1];
    IndexFromFirst(g, Closer(open), 1, |b| + 1);
  }

  /** A character in front of a group-free text opens no group when its
      closer does not occur in the text. */
  lemma NoGroupsCons(c: char, rest: string)
    requires NoGroups(rest)
    requires c == '(' ==> ')' !in multiset(rest)
    requires c == '[' ==> ']' !in multiset(rest)
    ensures NoGroups([c] + rest)
  {
    var r := [c] + rest;
    forall i, j | 0 <= i < j < |r|
      ensures !(r[i] == '(' && r[j] == ')') && !(r[i] == '[' && r[j] == ']')
    {
      assert r[j] == rest[j - 1] && r[j] in multiset(rest);
      if i > 0 {
        assert r[i] == rest[i - 1];
      }
    }
  }

  /** Removes trailing blanks. */
  function TrimRight(s: string): (r: string)
    ensures r <= s
    ensures r == [] || r[|r| - 1] != ' '
    ensures forall k :: |r| <= k < |s| ==> s[k] == ' '
  {
    if s != [] && s[|s| - 1] == ' ' then TrimRight(s[..|s| - 1]) else s
  }

  /** `removeParenthesis`: removes `(...)` and `[...]` groups, then trailing
      blanks. Util.cpp, which defines it, is not part of this model; its
      declaration promises only the removal of the groups. */
  function RemoveParenthesis(s: string): (r: string)
    ensures NoGroups(r)
    ensures multiset(r) <= multiset(s)
    ensures r == [] || r[|r| - 1] != ' '
    ensures '(' !in s && '[' !in s ==> r <= s && forall k :: |r| <= k < |s| ==> s[k] == ' '
  {
    var g := StripGroups(s);
    StripGroupsSound(s);
    var r := TrimRight(g);
    PrefixKeepsNoGroups(r, g);
    PrefixMultiset(r, g);
    r
  }

  /** A prefix holds no more of any character than the whole. */
  lemma PrefixMultiset(r: string, g: string)
    requires r <= g
    ensures multiset(r) <= multiset(g)
  {
    assert g == r + g[|r|..];
  }

  /** The clean name of a typical ROM file name, a title followed by a
      region tag and a dump tag ("Super Game (USA) [!]"), is the title:
      both tags go, and the blanks they leave at the end are trimmed. */
  lemma RemoveParenthesisDropsTags(title: string, region: string, dump: string)
    requires '(' !in title && '[' !in title
    requires title != [] && title[|title| - 1] != ' '
    requires ')' !in region && ']' !in dump
    ensures RemoveParenthesis(title + " (" + region + ") [" + dump + "]") == title
  {
    StripGroupsDropsTags(title, region, dump);
    TrimRightDropsBlank(title + " ");
    TrimRightDropsBlank(title);
  }

  /** The file name of a dumped ROM cleans to its bare title. */
  lemma RemoveParenthesisExample(name: string, title: string)
    requires name == "Super Game (USA) [!]" && title == "Super Game"
    ensures RemoveParenthesis(name) == title
  {
    var region, dump := "USA", "!";
    assert name == title + " (" + region + ") [" + dump + "]";
    assert '(' !in title && '[' !in title && title[|title| - 1] == 'e';
    RemoveParenthesisDropsTags(title, region, dump);
  }

  lemma StripGroupsDropsTags(title: string, region: string, dump: string)
    requires '(' !in title && '[' !in title
    requires ')' !in region && ']' !in dump
    ensures StripGroups(title + " (" + region + ") [" + dump + "]") == title + " " + " "
  {
    var front := title + " ";
    var tail := " [" + dump + "]";
    assert title + " (" + region + ") [" + dump + "]" == front + ['('] + region + [')'] + tail;
    assert '(' !in front && '[' !in front by {
      assert front == title + [' '];
    }
    StripGroupsDropsGroup(front, '(', region, tail);
    StripGroupsDropsBlankTag(dump);
  }

  lemma StripGroupsDropsBlankTag(dump: string)
    requires ']' !in dump
    ensures StripGroups(" [" + dump + "]") == " "
  {
    assert " [" + dump + "]" == " " + ['['] + dump + [']'] + [];
    StripGroupsDropsGroup(" ", '[', dump, []);
    assert StripGroups([]) == [];
  }

  /** Trailing blanks are trimmed one at a time. */
  lemma TrimRightDropsBlank(t: string)
    ensures TrimRight(t + " ") == TrimRight(t)
  {
    assert (t + " ")[..|t|] == t;
  }

  lemma PrefixKeepsNoGroups(r: string, g: string)
    requires r <= g && NoGroups(g)
    ensures NoGroups(r)
  {
    forall i, j | 0 <= i < j < |r|
      ensures !(r[i] == '(' && r[j] == ')') && !(r[i] == '[' && r[j] == ']')
    {
      assert r[i] == g[i] && r[j] == g[j];
    }
  }

  /** `getCleanName`: the display name without bracketed groups. */
  function CleanName(path: Path, system: Option<SystemInfo>, mameName: string -> string): (r: Result<string, Fault>)
    ensures r.Failure? <==> system.None?
    ensures r.Success? ==> NoGroups(r.value)
    ensures r.Success? ==> multiset(r.value) <= multiset(DisplayName(path, system, mameName))
    ensures r.Success? ==> r.value == RemoveParenthesis(DisplayName(path, system, mameName))
  {
    var name :- DisplayNameAsWritten(path, system, mameName);
    Success(RemoveParenthesis(name))
  }


  /** An entry's metadata dictionary. A key that is absent reads as empty. */
  type MetaData = map<string, string>

  function Get(md: MetaData, key: string): string {
    if key in md then md[key] else ""
  }

  /** Looks for `<stem>/images/<display name><suffix>.png`, then `.jpg`,
      through the `fileExists` probe of the filesystem. */
  function LocalAsset(path: Path, displayName: string, suffix: string, fileExists: string -> bool): (r: string)
    ensures r == "" || fileExists(r)
    ensures r != "" ==> path.stem + "/images/" + displayName + suffix <= r
    ensures var base := path.stem + "/images/" + displayName + suffix;
      && (fileExists(base + ".png") ==> r == base + ".png")
      && (!fileExists(base + ".png") && fileExists(base + ".jpg") ==> r == base + ".jpg")
      && (r == "" <==> !fileExists(base + ".png") && !fileExists(base + ".jpg"))
  {
    var base := path.stem + "/images/" + displayName + suffix;
    if fileExists(base + ".png") then base + ".png"
    else if fileExists(base + ".jpg") then base + ".jpg"
    else ""
  }

  /** `getImagePath`: the `image` metadata, or else a local image named
      after the display name, which faults without a system. */
  function ImagePath(md: MetaData, path: Path, system: Option<SystemInfo>, mameName: string -> string, fileExists: string -> bool): (r: Result<string, Fault>)
    ensures Get(md, "image") != "" ==> r == Success(Get(md, "image"))
    ensures Get(md, "image") == "" ==> (r.Failure? <==> system.None?)
    ensures Get(md, "image") == "" && r.Success? ==>
      r.value == LocalAsset(path, DisplayName(path, system, mameName), "-image", fileExists)
  {
    var image := Get(md, "image");
    if image != "" then Success(image)
    else
      var name :- DisplayNameAsWritten(path, system, mameName);
      Success(LocalAsset(path, name, "-image", fileExists))
  }

  /** `getMarqueePath`: the `marquee` metadata, or else a local marquee
      named after the display name, which faults without a system. */
  function MarqueePath(md: MetaData, path: Path, system: Option<SystemInfo>, mameName: string -> string, fileExists: string -> bool): (r: Result<string, Fault>)
    ensures Get(md, "marquee") != "" ==> r == Success(Get(md, "marquee"))
    ensures Get(md, "marquee") == "" ==> (r.Failure? <==> system.None?)
    ensures Get(md, "marquee") == "" && r.Success? ==>
      r.value == LocalAsset(path, DisplayName(path, system, mameName), "-marquee", fileExists)
  {
    var marquee := Get(md, "marquee");
    if marquee != "" then Success(marquee)
    else
      var name :- DisplayNameAsWritten(path, system, mameName);
      Success(LocalAsset(path, name, "-marquee", fileExists))
  }

  /** `getThumbnailPath`: the `thumbnail` metadata, else the `image`
      metadata, else a local image named after the display name, which
      faults without a system. */
  function ThumbnailPath(md: MetaData, path: Path, system: Option<SystemInfo>, mameName: string -> string, fileExists: string -> bool): (r: Result<string, Fault>)
    ensures Get(md, "thumbnail") != "" ==> r == Success(Get(md, "thumbnail"))
    ensures r.Failure? <==> Get(md, "thumbnail") == "" && Get(md, "image") == "" && system.None?
    ensures r.Success? ==> r.value == "" || r.value == Get(md, "thumbnail") || r.value == Get(md, "image") || fileExists(r.value)
  {
    var thumbnail := Get(md, "thumbnail");
    if thumbnail != "" then Success(thumbnail)
    else
      var image := Get(md, "image");
      if image != "" then Success(image)
      else
        var name :- DisplayNameAsWritten(path, system, mameName);
        Success(LocalAsset(path, name, "-image", fileExists))
  }

  /** Without a thumbnail entry, the thumbnail is exactly the image path. */
  lemma ThumbnailFallsBackToImage(md: MetaData, path: Path, system: Option<SystemInfo>, mameName: string -> string, fileExists: string -> bool)
    requires Get(md, "thumbnail") == ""
    ensures ThumbnailPath(md, path, system, mameName, fileExists) == ImagePath(md, path, system, mameName, fileExists)
  {
  }
}

=== FILE: file_tree.dfy ===
/** The FileData metadata tree (es-app/src/FileData.h, FileData.cpp).
    Nodes live in a store keyed by node identity, standing in for the
    `FileData*` pointers of the source. A folder keeps its children twice:
    as an ordered sequence and as a map from each child's file name to the
    child; the two views are kept in step by `addChild` and `removeChild`. */
module FileTree {
  import opened Common
  import opened FileNames
  import Sorting

  type NodeId = nat

  datatype FileType = Game | Folder

  /** The enum values of `FileType`: GAME = 1, FOLDER = 2. */
  function TypeBit(t: FileType): bv32 {
    match t
    case Game => 1
    case Folder => 2
  }

  /** `getType() & typeMask`, the test `getFilesRecursive` applies. */
  predicate MatchesMask(t: FileType, mask: bv32) {
    TypeBit(t) & mask != 0
  }

  /** The two type bits are distinct single bits: their union selects every
      node and each bit alone selects exactly its own type. */
  lemma TypeBitsAreDisjoint(t: FileType, u: FileType)
    ensures MatchesMask(t, TypeBit(Game) | TypeBit(Folder))
    ensures MatchesMask(t, TypeBit(u)) <==> t == u
  {
  }

  datatype Node = Node(
    kind: FileType,
    path: Path,
    system: Option<SystemInfo>,
    parent: Option<NodeId>,
    children: seq<NodeId>,
    byFilename: map<string, NodeId>,
    metadata: MetaData)

  type Store = map<NodeId, Node>

  /** `getName()`: the `name` metadata entry, empty when it is missing. */
  function Name(n: Node): (r: string)
    ensures "name" in n.metadata ==> r == n.metadata["name"]
    ensures r == "" <==> "name" !in n.metadata || n.metadata["name"] == ""
  {
    Get(n.metadata, "name")
  }

  /** The constructor: no parent, no children, the default metadata of its
      kind, and a `name` entry filled from the display name when the
      defaults leave it empty; filling it reaches `getDisplayName`, which
      faults without a system. The default lists live in MetaData.h, which
      is not part of this model, so they are a parameter. */
  function NewNode(kind: FileType, path: Path, system: Option<SystemInfo>, mameName: string -> string, defaults: MetaData): (r: Result<Node, Fault>)
    ensures r.Failure? <==> Get(defaults, "name") == "" && system.None?
    ensures r.Success? ==> r.value.kind == kind && r.value.path == path && r.value.system == system
    ensures r.Success? ==> r.value.parent == None && r.value.children == [] && r.value.byFilename == map[]
    ensures r.Success? && Get(defaults, "name") != "" ==> Name(r.value) == Get(defaults, "name")
    ensures r.Success? && Get(defaults, "name") == "" ==> Name(r.value) == DisplayName(path, system, mameName)
    ensures r.Success? && DisplayName(path, system, mameName) != "" ==> Name(r.value) != ""
    ensures r.Success? ==> forall k :: k != "name" ==> Get(r.value.metadata, k) == Get(defaults, k)
  {
    if Get(defaults, "name") != "" then Success(Node(kind, path, system, None, [], map[], defaults))
    else
      var name :- DisplayNameAsWritten(path, system, mameName);
      Success(Node(kind, path, system, None, [], map[], defaults["name" := name]))
  }


  /** The lookup key of a node in its parent's map. */
  function Key(s: Store, id: NodeId): string
    requires id in s
  {
    FileName(s[id].path)
  }

  predicate NoDuplicates(cs: seq<NodeId>) {
    forall i, j :: 0 <= i < j < |cs| ==> cs[i] != cs[j]
  }

  /** Every child of every node is itself in the store. */
  ghost predicate Closed(s: Store) {
    && (forall id, c :: id in s && c in s[id].children ==> c in s)
    && (forall id, k :: id in s && k in s[id].byFilename ==> s[id].byFilename[k] in s)
    && (forall id :: id in s && s[id].parent.Some? ==> s[id].parent.value in s)
  }

  /** The two views of a node's children agree: each child is filed under
      its own file name, each map entry names a child filed under that
      name, and no child appears twice. Hence child file names are distinct. */
  ghost predicate Synced(s: Store, id: NodeId)
    requires id in s
  {
    var n := s[id];
    && NoDuplicates(n.children)
    && (forall c :: c in n.children ==> c in s && Key(s, c) in n.byFilename && n.byFilename[Key(s, c)] == c)
    && (forall k :: k in n.byFilename ==> n.byFilename[k] in n.children && n.byFilename[k] in s && Key(s, n.byFilename[k]) == k)
  }

  ghost predicate AllSynced(s: Store) {
    forall id :: id in s ==> Synced(s, id)
  }

  /** A GAME cannot have children. */
  ghost predicate GamesAreLeaves(s: Store) {
    forall id :: id in s && s[id].kind == Game ==> s[id].children == [] && s[id].byFilename == map[]
  }

  /** A node listed as a child names its lister as parent. */
  ghost predicate ParentLinks(s: Store)
    requires Closed(s)
  {
    forall id, c :: id in s && c in s[id].children ==> s[c].parent == Some(id)
  }

  ghost predicate WellFormed(s: Store) {
    && Closed(s)
    && AllSynced(s)
    && GamesAreLeaves(s)
    && ParentLinks(s)
  }

  /** `r` differs from `s` at most in the children views of `p` and in
      parent pointers: every node keeps its kind and path. */
  ghost predicate SameNodesExcept(s: Store, r: Store, p: NodeId) {
    && r.Keys == s.Keys
    && (forall id :: id in s ==> r[id].kind == s[id].kind && r[id].path == s[id].path)
    && (forall id :: id in s && id != p ==> r[id].children == s[id].children && r[id].byFilename == s[id].byFilename)
  }

  lemma SyncedElsewhere(s: Store, r: Store, p: NodeId)
    requires AllSynced(s) && SameNodesExcept(s, r, p)
    ensures forall id :: id in r && id != p ==> Synced(r, id)
  {
    assert forall id :: id in r ==> Key(r, id) == Key(s, id);
  }

  /** In a synced node the file names of the children are pairwise distinct. */
  lemma SyncedNamesDistinct(s: Store, id: NodeId)
    requires id in s && Synced(s, id)
    ensures forall i, j :: 0 <= i < j < |s[id].children| ==> Key(s, s[id].children[i]) != Key(s, s[id].children[j])
  {
  }

  /** `getChildren()` and `getChildrenByFilename()` hold the same nodes. */
  lemma ChildViewsAgree(s: Store, id: NodeId)
    requires WellFormed(s) && id in s
    ensures s[id].byFilename.Values == set c | c in s[id].children
  {
    var n := s[id];
    forall c | c in n.children
      ensures c in n.byFilename.Values
    {
      assert n.byFilename[Key(s, c)] == c;
    }
  }

  datatype TreeError = NotAFolder | AlreadyHasParent | NotOurChild | MissingFromChildren

  /** `addChild`: only a folder takes children, and only a parentless node
      is taken. A node whose file name is already filed is dropped
      silently; otherwise it is appended, filed under its name, and its
      parent set to the receiver. */
  function AddChild(s: Store, p: NodeId, f: NodeId): (r: Result<Store, TreeError>)
    requires p in s && f in s
    ensures s[p].kind != Folder ==> r == Failure(NotAFolder)
    ensures s[p].kind == Folder && s[f].parent.Some? ==> r == Failure(AlreadyHasParent)
    ensures r.Success? <==> s[p].kind == Folder && s[f].parent.None?
    ensures r.Success? && Key(s, f) in s[p].byFilename ==> r.value == s
    ensures r.Success? && Key(s, f) !in s[p].byFilename ==>
      && r.value.Keys == s.Keys
      && r.value[p].children == s[p].children + [f]
      && r.value[p].byFilename == s[p].byFilename[Key(s, f) := f]
      && r.value[f].parent == Some(p)
      && (f != p ==> r.value[f] == s[f].(parent := Some(p)) && r.value[p].parent == s[p].parent)
      && r.value[p] == s[p].(children := r.value[p].children, byFilename := r.value[p].byFilename, parent := r.value[p].parent)
      && (forall id :: id in s && id != p && id != f ==> r.value[id] == s[id])
  {
    if s[p].kind != Folder then Failure(NotAFolder)
    else if s[f].parent.Some? then Failure(AlreadyHasParent)
    else
      var key := Key(s, f);
      if key in s[p].byFilename then Success(s)
      else
        var np := s[p].(children := s[p].children + [f], byFilename := s[p].byFilename[key := f]);
        var s1 := s[p := np];
        Success(s1[f := s1[f].(parent := Some(p))])
  }

  function FirstIndex(cs: seq<NodeId>, f: NodeId): (i: nat)
    requires f in cs
    ensures i < |cs| && cs[i] == f
    ensures forall k :: 0 <= k < i ==> cs[k] != f
  {
    if cs[0] == f then 0 else 1 + FirstIndex(cs[1..], f)
  }

  /** `removeChild`: only a folder removes children, only its own (by the
      parent pointer), and a child the pointer claims but the sequence
      lacks is a fatal inconsistency. The map entry under the child's name
      is erased and the first occurrence of the child is cut from the
      sequence. The removed node keeps its parent pointer. */
  function RemoveChild(s: Store, p: NodeId, f: NodeId): (r: Result<Store, TreeError>)
    requires p in s && f in s
    ensures s[p].kind != Folder ==> r == Failure(NotAFolder)
    ensures s[p].kind == Folder && s[f].parent != Some(p) ==> r == Failure(NotOurChild)
    ensures s[p].kind == Folder && s[f].parent == Some(p) && f !in s[p].children ==> r == Failure(MissingFromChildren)
    ensures r.Success? <==> s[p].kind == Folder && s[f].parent == Some(p) && f in s[p].children
    ensures r.Success? ==>
      var i := FirstIndex(s[p].children, f);
      && r.value.Keys == s.Keys
      && r.value[p].children == s[p].children[..i] + s[p].children[i + 1..]
      && multiset(r.value[p].children) == multiset(s[p].children) - multiset{f}
      && r.value[p].byFilename == s[p].byFilename - {Key(s, f)}
      && r.value[p] == s[p].(children := r.value[p].children, byFilename := r.value[p].byFilename)
      && r.value[f].parent == s[f].parent
      && (forall id :: id in s && id != p ==> r.value[id] == s[id])
  {
    if s[p].kind != Folder then Failure(NotAFolder)
    else if s[f].parent != Some(p) then Failure(NotOurChild)
    else if f !in s[p].children then Failure(MissingFromChildren)
    else
      var cs := s[p].children;
      var i := FirstIndex(cs, f);
      CutMultiset(cs, i);
      Success(s[p := s[p].(children := cs[..i] + cs[i + 1..], byFilename := s[p].byFilename - {Key(s, f)})])
  }

  lemma CutMultiset(cs: seq<NodeId>, i: nat)
    requires i < |cs|
    ensures multiset(cs[..i] + cs[i + 1..]) == multiset(cs) - multiset{cs[i]}
  {
    assert cs == cs[..i] + [cs[i]] + cs[i + 1..];
  }

  lemma AddChildShape(s: Store, p: NodeId, f: NodeId)
    requires Closed(s) && ParentLinks(s) && p in s && f in s
    requires AddChild(s, p, f).Success? && Key(s, f) !in s[p].byFilename
    ensures var r := AddChild(s, p, f).value;
      && SameNodesExcept(s, r, p)
      && Closed(r)
      && f !in s[p].children
  {
    var r := AddChild(s, p, f).value;
    assert f !in s[p].children by {
      assert s[f].parent.None?;
    }
    assert SameNodesExcept(s, r, p) by {
      assert forall id :: id in s && id != p && id != f ==> r[id] == s[id];
    }
    ClosedWhenGrown(s, r, p, f);
  }

  /** Appending a node of the store to one node's children and filing it
      under a key, and pointing it at its new parent, keeps the store
      closed. */
  lemma ClosedWhenGrown(s: Store, r: Store, p: NodeId, f: NodeId)
    requires Closed(s) && p in s && f in s && r.Keys == s.Keys
    requires forall id :: id in s && id != p && id != f ==> r[id] == s[id]
    requires r[p].children == s[p].children + [f]
    requires forall k :: k in r[p].byFilename ==> r[p].byFilename[k] == f || (k in s[p].byFilename && r[p].byFilename[k] == s[p].byFilename[k])
    requires r[f].parent == Some(p) && (f != p ==> r[f] == s[f].(parent := Some(p)) && r[p].parent == s[p].parent)
    ensures Closed(r)
  {
    forall id, c | id in r && c in r[id].children
      ensures c in r
    {
      if id == p {
        assert c in s[p].children || c == f;
      }
    }
    forall id, k | id in r && k in r[id].byFilename
      ensures r[id].byFilename[k] in r
    {
    }
    forall id | id in r && r[id].parent.Some?
      ensures r[id].parent.value in r
    {
    }
  }

  lemma AddChildSyncedAtParent(s: Store, r: Store, p: NodeId, f: NodeId)
    requires p in s && Synced(s, p) && SameNodesExcept(s, r, p)
    requires f in s && f !in s[p].children && Key(s, f) !in s[p].byFilename
    requires r[p].children == s[p].children + [f]
    requires r[p].byFilename == s[p].byFilename[Key(s, f) := f]
    ensures Synced(r, p)
  {
    assert forall id :: id in r ==> Key(r, id) == Key(s, id);
    var cs := r[p].children;
    forall i, j | 0 <= i < j < |cs|
      ensures cs[i] != cs[j]
    {
      if j == |cs| - 1 {
        assert cs[j] == f && cs[i] in s[p].children;
      }
    }
  }

  lemma AddChildParentLinks(s: Store, r: Store, p: NodeId, f: NodeId)
    requires Closed(s) && ParentLinks(s) && Closed(r) && SameNodesExcept(s, r, p)
    requires p in s && f in s && s[f].parent.None?
    requires r[p].children == s[p].children + [f]
    requires r[f].parent == Some(p)
    requires forall id :: id in s && id != f ==> r[id].parent == s[id].parent
    ensures ParentLinks(r)
  {
    forall id, c | id in r && c in r[id].children
      ensures r[c].parent == Some(id)
    {
      if id == p && c == f {
      } else {
        assert c in s[id].children;
      }
    }
  }

  /** `addChild` keeps the tree well formed, whether it files the node or
      drops it as a duplicate. */
  lemma AddChildPreservesWellFormed(s: Store, p: NodeId, f: NodeId)
    requires WellFormed(s) && p in s && f in s
    requires AddChild(s, p, f).Success?
    ensures WellFormed(AddChild(s, p, f).value)
  {
    if Key(s, f) !in s[p].byFilename {
      var r := AddChild(s, p, f).value;
      AddChildShape(s, p, f);
      SyncedElsewhere(s, r, p);
      AddChildSyncedAtParent(s, r, p, f);
      AddChildParentLinks(s, r, p, f);
    }
  }
  /** `addChild` checks neither that the child is not the folder itself
      nor that it is none of its ancestors, so a well-formed store can gain
      a cycle; afterwards no rank exists, and the recursive walks
      (`getFilesRecursive`, `sort`) would not terminate on it. */
  lemma AddChildCanCloseCycle()
    ensures var s := map[0 := Node(Folder, Path("", "roms", ""), None, None, [], map[], map[])];
      && WellFormed(s) && AddChild(s, 0, 0).Success?
      && forall rank :: !Ranked(AddChild(s, 0, 0).value, rank)
  {
    var s := map[0 := Node(Folder, Path("", "roms", ""), None, None, [], map[], map[])];
    var r := AddChild(s, 0, 0).value;
    assert 0 in r[0].children;
  }


  /** Cutting position `i` out of a duplicate-free sequence leaves a
      duplicate-free sequence of exactly the other elements. */
  lemma CutAt(cs: seq<NodeId>, i: nat)
    requires i < |cs| && NoDuplicates(cs)
    ensures NoDuplicates(cs[..i] + cs[i + 1..])
    ensures forall c :: c in cs[..i] + cs[i + 1..] <==> c in cs && c != cs[i]
  {
    var cs' := cs[..i] + cs[i + 1..];
    assert forall k :: 0 <= k < |cs'| ==> cs'[k] == (if k < i then cs[k] else cs[k + 1]);
    forall c | c in cs && c != cs[i]
      ensures c in cs'
    {
      var m :| 0 <= m < |cs| && cs[m] == c;
      if m < i {
        assert cs'[m] == c;
      } else {
        assert cs'[m - 1] == c;
      }
    }
  }

  lemma RemoveChildSyncedAtParent(s: Store, r: Store, p: NodeId, f: NodeId, i: nat)
    requires p in s && Synced(s, p) && SameNodesExcept(s, r, p)
    requires && f in s && i < |s[p].children| && s[p].children[i] == f
    requires r[p].children == s[p].children[..i] + s[p].children[i + 1..]
    requires r[p].byFilename == s[p].byFilename - {Key(s, f)}
    ensures Synced(r, p)
    ensures f !in r[p].children
  {
    var cs := s[p].children;
    var cs' := r[p].children;
    assert forall id :: id in r ==> Key(r, id) == Key(s, id);
    CutAt(cs, i);
    forall c | c in cs'
      ensures Key(r, c) in r[p].byFilename && r[p].byFilename[Key(r, c)] == c
    {
      assert s[p].byFilename[Key(s, c)] == c;
      assert s[p].byFilename[Key(s, f)] == f;
    }
    forall k | k in r[p].byFilename
      ensures r[p].byFilename[k] in cs'
    {
      assert s[p].byFilename[k] in cs;
    }
  }

  lemma RemoveChildFrame(s: Store, p: NodeId, f: NodeId)
    requires Closed(s) && p in s && f in s
    requires RemoveChild(s, p, f).Success?
    ensures var r := RemoveChild(s, p, f).value;
      && SameNodesExcept(s, r, p)
      && Closed(r)
      && (forall id :: id in s ==> r[id].parent == s[id].parent)
      && (forall c :: c in r[p].children ==> c in s[p].children)
  {
    var r := RemoveChild(s, p, f).value;
    var cs, i := s[p].children, FirstIndex(s[p].children, f);
    assert forall c :: c in r[p].children ==> c in cs by {
      assert r[p].children == cs[..i] + cs[i + 1..];
    }
    ClosedWhenShrunk(s, r, p);
  }

  /** Shrinking one node's children and filename map, and changing nothing
      else, keeps the store closed. */
  lemma ClosedWhenShrunk(s: Store, r: Store, p: NodeId)
    requires Closed(s) && p in s && r.Keys == s.Keys
    requires forall id :: id in s && id != p ==> r[id] == s[id]
    requires forall c :: c in r[p].children ==> c in s[p].children
    requires forall k :: k in r[p].byFilename ==> k in s[p].byFilename && r[p].byFilename[k] == s[p].byFilename[k]
    requires r[p].parent == s[p].parent
    ensures Closed(r)
  {
  }

  lemma RemoveChildParentLinks(s: Store, r: Store, p: NodeId)
    requires Closed(s) && ParentLinks(s) && Closed(r) && SameNodesExcept(s, r, p) && p in s
    requires forall id :: id in s ==> r[id].parent == s[id].parent
    requires forall c :: c in r[p].children ==> c in s[p].children
    ensures ParentLinks(r)
  {
    forall id, c | id in r && c in r[id].children
      ensures r[c].parent == Some(id)
    {
      assert c in s[id].children;
    }
  }

  /** `removeChild` keeps the tree well formed: the removed node is listed
      nowhere any more, so its stale parent pointer breaks no invariant. */
  lemma RemoveChildPreservesWellFormed(s: Store, p: NodeId, f: NodeId)
    requires WellFormed(s) && p in s && f in s
    requires RemoveChild(s, p, f).Success?
    ensures WellFormed(RemoveChild(s, p, f).value)
    ensures f !in RemoveChild(s, p, f).value[p].children
  {
    var r := RemoveChild(s, p, f).value;
    var i := FirstIndex(s[p].children, f);
    RemoveChildFrame(s, p, f);
    SyncedElsewhere(s, r, p);
    RemoveChildSyncedAtParent(s, r, p, f, i);
    RemoveChildParentLinks(s, r, p);
  }

  /** The removed node keeps pointing at its old parent, so it can never be
      added to a folder again, and the destructor's own `removeChild`
      (FileData.cpp:15-18) meets the missing-child failure. */
  lemma RemovedNodeStaysAttached(s: Store, p: NodeId, f: NodeId, q: NodeId)
    requires WellFormed(s) && p in s && f in s && q in s
    requires RemoveChild(s, p, f).Success?
    ensures q in RemoveChild(s, p, f).value && f in RemoveChild(s, p, f).value
    ensures RemoveChild(s, p, f).value[q].kind == Folder ==> AddChild(RemoveChild(s, p, f).value, q, f) == Failure(AlreadyHasParent)
    ensures RemoveChild(RemoveChild(s, p, f).value, p, f) == Failure(MissingFromChildren)
  {
    RemoveChildPreservesWellFormed(s, p, f);
  }

  /** `removeChild` with the removed node's parent pointer cleared, as the
      destructor and a later `addChild` need it to be. */
  function DetachChild(s: Store, p: NodeId, f: NodeId): (r: Result<Store, TreeError>)
    requires p in s && f in s
    ensures r.Success? <==> RemoveChild(s, p, f).Success?
    ensures r.Success? ==> r.value.Keys == s.Keys && r.value[f].parent == None
    ensures r.Success? && f != p ==> r.value[p] == RemoveChild(s, p, f).value[p]
    ensures r.Success? ==> r.value[f] == RemoveChild(s, p, f).value[f].(parent := None)
    ensures r.Success? ==> forall k :: k in r.value && k != f ==> r.value[k] == RemoveChild(s, p, f).value[k]
  {
    var removed :- RemoveChild(s, p, f);
    Success(removed[f := removed[f].(parent := None)])
  }

  /** A detached node can be added to any folder: it moves there, and its old
      folder no longer lists it. */
  lemma DetachedNodeCanMove(s: Store, p: NodeId, f: NodeId, q: NodeId)
    requires WellFormed(s) && p in s && f in s && q in s && f != p && f != q
    requires s[q].kind == Folder
    requires DetachChild(s, p, f).Success?
    ensures AddChild(DetachChild(s, p, f).value, q, f).Success?
    ensures var t := DetachChild(s, p, f).value;
      Key(t, f) !in t[q].byFilename ==>
        && AddChild(t, q, f).value[f].parent == Some(q)
        && (q != p ==> f !in AddChild(t, q, f).value[p].children)
        && (q != p ==> Key(s, f) !in AddChild(t, q, f).value[p].byFilename)
  {
    var t := DetachChild(s, p, f).value;
    RemoveChildPreservesWellFormed(s, p, f);
    assert t[q].kind == Folder;
  }

  /** An acyclicity witness: every child ranks strictly below its parent.
      `addChild` does not check for cycles (a folder may be added under its
      own descendant), so the recursive walks below ask for this witness. */
  ghost predicate Ranked(s: Store, rank: map<NodeId, nat>) {
    && s.Keys <= rank.Keys
    && forall id, c :: id in s && c in s[id].children ==> c in s && rank[c] < rank[id]
  }

  /** `getFilesRecursive(typeMask)`: for each child in order, the child
      itself when its type bit is in the mask, then the child's own
      descendants. The receiver is not part of its result. */
  function FilesRecursive(s: Store, id: NodeId, mask: bv32, ghost rank: map<NodeId, nat>): (r: seq<NodeId>)
    requires id in s && Ranked(s, rank)
    ensures forall x :: x in r ==> x in s && MatchesMask(s[x].kind, mask)
    decreases rank[id], 1
  {
    FilesOfChildren(s, s[id].children, mask, rank, rank[id])
  }

  function FilesOfChildren(s: Store, cs: seq<NodeId>, mask: bv32, ghost rank: map<NodeId, nat>, ghost bound: nat): (r: seq<NodeId>)
    requires Ranked(s, rank)
    requires forall c :: c in cs ==> c in s && rank[c] < bound
    ensures forall x :: x in r ==> x in s && MatchesMask(s[x].kind, mask)
    decreases bound, 0, |cs|
  {
    if cs == [] then []
    else
      var c := cs[0];
      (if MatchesMask(s[c].kind, mask) then [c] else [])
      + (if |s[c].children| > 0 then FilesRecursive(s, c, mask, rank) else [])
      + FilesOfChildren(s, cs[1..], mask, rank, bound)
  }

  /** `x` is a strict descendant of `id`. */
  ghost predicate Below(s: Store, id: NodeId, x: NodeId, rank: map<NodeId, nat>)
    requires id in s && Ranked(s, rank)
    decreases rank[id]
  {
    exists k :: 0 <= k < |s[id].children| && (s[id].children[k] == x || Below(s, s[id].children[k], x, rank))
  }

  lemma {:induction false} BelowRanks(s: Store, id: NodeId, x: NodeId, rank: map<NodeId, nat>)
    requires id in s && Ranked(s, rank) && Below(s, id, x, rank)
    ensures x in s && rank[x] < rank[id]
    decreases rank[id]
  {
    var k :| 0 <= k < |s[id].children| && (s[id].children[k] == x || Below(s, s[id].children[k], x, rank));
    var c := s[id].children[k];
    if c != x {
      BelowRanks(s, c, x, rank);
    }
  }

  /** `getFilesRecursive` lists exactly the strict descendants whose type
      matches the mask. */
  lemma {:induction false} FilesRecursiveMembers(s: Store, id: NodeId, mask: bv32, rank: map<NodeId, nat>, x: NodeId)
    requires id in s && Ranked(s, rank)
    ensures x in FilesRecursive(s, id, mask, rank) <==> Below(s, id, x, rank) && x in s && MatchesMask(s[x].kind, mask)
    decreases rank[id], 1
  {
    FilesOfChildrenMembers(s, s[id].children, mask, rank, rank[id], x);
  }

  lemma {:induction false} FilesOfChildrenMembers(s: Store, cs: seq<NodeId>, mask: bv32, rank: map<NodeId, nat>, bound: nat, x: NodeId)
    requires Ranked(s, rank)
    requires forall c :: c in cs ==> c in s && rank[c] < bound
    ensures x in FilesOfChildren(s, cs, mask, rank, bound) <==>
      (exists k :: 0 <= k < |cs| && (cs[k] == x || Below(s, cs[k], x, rank))) && x in s && MatchesMask(s[x].kind, mask)
    decreases bound, 0, |cs|
  {
    if cs != [] {
      var c := cs[0];
      FilesOfChildrenMembers(s, cs[1..], mask, rank, bound, x);
      FilesRecursiveMembers(s, c, mask, rank, x);
      var self := if MatchesMask(s[c].kind, mask) then [c] else [];
      var sub := if |s[c].children| > 0 then FilesRecursive(s, c, mask, rank) else [];
      var rest := FilesOfChildren(s, cs[1..], mask, rank, bound);
      assert FilesOfChildren(s, cs, mask, rank, bound) == self + sub + rest;
      if |s[c].children| == 0 {
        assert !Below(s, c, x, rank);
      }
      ReachedCons(s, cs, rank, x);
    }
  }

  /** Reaching `x` from a list of roots: from its head, or from its tail. */
  lemma ReachedCons(s: Store, cs: seq<NodeId>, rank: map<NodeId, nat>, x: NodeId)
    requires cs != [] && Ranked(s, rank) && forall c :: c in cs ==> c in s
    ensures (exists k :: 0 <= k < |cs| && (cs[k] == x || Below(s, cs[k], x, rank))) <==>
      (cs[0] == x || Below(s, cs[0], x, rank)) || (exists k :: 0 <= k < |cs[1..]| && (cs[1..][k] == x || Below(s, cs[1..][k], x, rank)))
  {
    if exists k :: 0 <= k < |cs| && (cs[k] == x || Below(s, cs[k], x, rank)) {
      var k :| 0 <= k < |cs| && (cs[k] == x || Below(s, cs[k], x, rank));
      if k > 0 {
        assert cs[1..][k - 1] == cs[k];
      }
    }
    if exists k :: 0 <= k < |cs[1..]| && (cs[1..][k] == x || Below(s, cs[1..][k], x, rank)) {
      var k :| 0 <= k < |cs[1..]| && (cs[1..][k] == x || Below(s, cs[1..][k], x, rank));
      assert cs[k + 1] == cs[1..][k];
    }
  }


  /** The receiver never lists itself, even when its own type matches. */
  lemma FilesRecursiveExcludesSelf(s: Store, id: NodeId, mask: bv32, rank: map<NodeId, nat>)
    requires id in s && Ranked(s, rank)
    ensures id !in FilesRecursive(s, id, mask, rank)
  {
    FilesRecursiveMembers(s, id, mask, rank, id);
    if Below(s, id, id, rank) {
      BelowRanks(s, id, id, rank);
    }
  }

  function FilterByMask(s: Store, xs: seq<NodeId>, mask: bv32): (r: seq<NodeId>)
    requires forall x :: x in xs ==> x in s
    ensures forall x :: x in r <==> x in xs && MatchesMask(s[x].kind, mask)
  {
    if xs == [] then []
    else (if MatchesMask(s[xs[0]].kind, mask) then [xs[0]] else []) + FilterByMask(s, xs[1..], mask)
  }

  lemma {:induction false} FilterDistributes(s: Store, a: seq<NodeId>, b: seq<NodeId>, mask: bv32)
    requires forall x :: x in a ==> x in s
    requires forall x :: x in b ==> x in s
    ensures FilterByMask(s, a + b, mask) == FilterByMask(s, a, mask) + FilterByMask(s, b, mask)
  {
    if a == [] {
      assert a + b == b;
    } else {
      var ab := a + b;
      assert ab[0] == a[0];
      assert ab[1..] == a[1..] + b;
      FilterDistributes(s, a[1..], b, mask);
      var head := if MatchesMask(s[a[0]].kind, mask) then [a[0]] else [];
      calc {
        FilterByMask(s, ab, mask);
        head + FilterByMask(s, ab[1..], mask);
        head + (FilterByMask(s, a[1..], mask) + FilterByMask(s, b, mask));
        (head + FilterByMask(s, a[1..], mask)) + FilterByMask(s, b, mask);
      }
    }
  }

  /** The order is the pre-order of the whole subtree: a masked walk is the
      unmasked walk (mask GAME|FOLDER) with non-matching nodes left out. */
  lemma {:induction false} FilesRecursiveIsFilteredPreOrder(s: Store, id: NodeId, mask: bv32, rank: map<NodeId, nat>)
    requires id in s && Ranked(s, rank)
    ensures FilesRecursive(s, id, mask, rank) == FilterByMask(s, FilesRecursive(s, id, TypeBit(Game) | TypeBit(Folder), rank), mask)
    decreases rank[id], 1
  {
    FilesOfChildrenFiltered(s, s[id].children, mask, rank, rank[id]);
  }

  lemma {:induction false} FilesOfChildrenFiltered(s: Store, cs: seq<NodeId>, mask: bv32, rank: map<NodeId, nat>, bound: nat)
    requires Ranked(s, rank)
    requires forall c :: c in cs ==> c in s && rank[c] < bound
    ensures FilesOfChildren(s, cs, mask, rank, bound) == FilterByMask(s, FilesOfChildren(s, cs, TypeBit(Game) | TypeBit(Folder), rank, bound), mask)
    decreases bound, 0, |cs|
  {
    if cs != [] {
      var all := TypeBit(Game) | TypeBit(Folder);
      var c := cs[0];
      TypeBitsAreDisjoint(s[c].kind, Game);
      FilesOfChildrenFiltered(s, cs[1..], mask, rank, bound);
      var sub := if |s[c].children| > 0 then FilesRecursive(s, c, all, rank) else [];
      if |s[c].children| > 0 {
        FilesRecursiveIsFilteredPreOrder(s, c, mask, rank);
      }
      var rest := FilesOfChildren(s, cs[1..], all, rank, bound);
      FilterDistributes(s, [c] + sub, rest, mask);
      FilterDistributes(s, [c], sub, mask);
    }
  }

  lemma FilesRecursiveMembersAll(s: Store, id: NodeId, mask: bv32, rank: map<NodeId, nat>)
    requires id in s && Ranked(s, rank)
    ensures forall x :: x in FilesRecursive(s, id, mask, rank) <==> Below(s, id, x, rank) && x in s && MatchesMask(s[x].kind, mask)
  {
    forall x
      ensures x in FilesRecursive(s, id, mask, rank) <==> Below(s, id, x, rank) && x in s && MatchesMask(s[x].kind, mask)
    {
      FilesRecursiveMembers(s, id, mask, rank, x);
    }
  }

  /** One level of `sort`: `std::sort` with the comparator, then
      `std::reverse` when descending. The insertion sort stands for
      `std::sort`; only its sortedness and permutation are promised. */
  function ArrangeLevel(cs: seq<NodeId>, less: (NodeId, NodeId) -> bool, ascending: bool): (r: seq<NodeId>)
    requires Sorting.StrictWeakOrder(less)
    ensures multiset(r) == multiset(cs)
    ensures ascending ==> Sorting.SortedBy(less, r)
    ensures !ascending ==> Sorting.ReverseSortedBy(less, r)
  {
    var sorted := Sorting.SortSeq(less, cs);
    if ascending then sorted
    else
      Sorting.ReverseOfSorted(less, sorted);
      Sorting.ReversePreservesMultiset(sorted);
      Sorting.Reverse(sorted)
  }

  /** `sort(comparator, ascending)`: every level of the subtree rooted at
      `root`, the root included, is rearranged by `ArrangeLevel`; the
      source reaches exactly these levels (it descends into every child
      that has children, and a childless level has nothing to arrange).
      Nothing but the order of children changes. */
  function SortTree(s: Store, root: NodeId, less: (NodeId, NodeId) -> bool, ascending: bool, ghost rank: map<NodeId, nat>): (r: Store)
    requires root in s && Ranked(s, rank) && Sorting.StrictWeakOrder(less)
    ensures r.Keys == s.Keys
    ensures forall id :: id in s ==> r[id] == s[id].(children := r[id].children)
    ensures forall id :: id in s ==> multiset(r[id].children) == multiset(s[id].children)
    ensures forall id :: id in s && (id == root || Below(s, root, id, rank)) ==>
      && (ascending ==> Sorting.SortedBy(less, r[id].children))
      && (!ascending ==> Sorting.ReverseSortedBy(less, r[id].children))
    ensures forall id :: id in s && id != root && !Below(s, root, id, rank) ==> r[id] == s[id]
  {
    var all := TypeBit(Game) | TypeBit(Folder);
    var sub := FilesRecursive(s, root, all, rank);
    FilesRecursiveMembersAll(s, root, all, rank);
    assert forall x :: x in s ==> MatchesMask(s[x].kind, all);
    map id | id in s :: if id == root || id in sub then s[id].(children := ArrangeLevel(s[id].children, less, ascending)) else s[id]
  }

  /** A descending sort leaves every level of the subtree in exactly the
      reverse of the ascending order. */
  lemma DescendingIsReversedAscending(s: Store, root: NodeId, less: (NodeId, NodeId) -> bool, rank: map<NodeId, nat>, id: NodeId)
    requires root in s && Ranked(s, rank) && Sorting.StrictWeakOrder(less)
    requires id in s && (id == root || Below(s, root, id, rank))
    ensures SortTree(s, root, less, false, rank)[id].children == Sorting.Reverse(SortTree(s, root, less, true, rank)[id].children)
    ensures SortTree(s, root, less, true, rank)[id].children == Sorting.Reverse(SortTree(s, root, less, false, rank)[id].children)
  {
    FilesRecursiveMembersAll(s, root, TypeBit(Game) | TypeBit(Folder), rank);
    Sorting.ReverseInvolutive(SortTree(s, root, less, true, rank)[id].children);
  }

  lemma {:induction false} NoDuplicatesCount(a: seq<NodeId>)
    ensures NoDuplicates(a) <==> forall x :: multiset(a)[x] <= 1
  {
    if a != [] {
      var t := a[1..];
      assert a == [a[0]] + t;
      NoDuplicatesCount(t);
      if NoDuplicates(a) {
        assert a[0] !in t by {
          forall k | 0 <= k < |t|
            ensures t[k] != a[0]
          {
            assert t[k] == a[k + 1];
          }
        }
        assert NoDuplicates(t) by {
          forall i, j | 0 <= i < j < |t|
            ensures t[i] != t[j]
          {
            assert t[i] == a[i + 1] && t[j] == a[j + 1];
          }
        }
      }
      if forall x :: multiset(a)[x] <= 1 {
        assert multiset(a)[a[0]] == multiset(t)[a[0]] + 1;
        assert a[0] !in t;
        assert forall x :: multiset(t)[x] <= multiset(a)[x];
        forall i, j | 0 <= i < j < |a|
          ensures a[i] != a[j]
        {
          if i == 0 {
            assert a[j] == t[j - 1];
          } else {
            assert a[i] == t[i - 1] && a[j] == t[j - 1];
          }
        }
      }
    }
  }

  lemma NoDuplicatesPermutation(a: seq<NodeId>, b: seq<NodeId>)
    requires NoDuplicates(a) && multiset(a) == multiset(b)
    ensures NoDuplicates(b)
  {
    NoDuplicatesCount(a);
    NoDuplicatesCount(b);
  }

  /** Rearranging children keeps the acyclicity witness valid. */
  lemma SortTreeKeepsRank(s: Store, root: NodeId, less: (NodeId, NodeId) -> bool, ascending: bool, rank: map<NodeId, nat>)
    requires root in s && Ranked(s, rank) && Sorting.StrictWeakOrder(less)
    ensures Ranked(SortTree(s, root, less, ascending, rank), rank)
  {
    var r := SortTree(s, root, less, ascending, rank);
    assert Reordered(s, r);
    ReorderedSameMembers(s, r);
    ReorderedKeepsRank(s, r, rank);
  }

  lemma ReorderedKeepsRank(s: Store, r: Store, rank: map<NodeId, nat>)
    requires Reordered(s, r) && Ranked(s, rank)
    requires forall id, c :: id in s ==> (c in r[id].children <==> c in s[id].children)
    ensures Ranked(r, rank)
  {
  }

  /** `r` differs from `s` only in the order of some children sequences. */
  ghost predicate Reordered(s: Store, r: Store) {
    && r.Keys == s.Keys
    && (forall id :: id in s ==> r[id] == s[id].(children := r[id].children))
    && (forall id :: id in s ==> multiset(r[id].children) == multiset(s[id].children))
  }

  lemma ReorderedSameMembers(s: Store, r: Store)
    requires Reordered(s, r)
    ensures forall id, c :: id in s ==> (c in r[id].children <==> c in s[id].children)
  {
    forall id, c | id in s
      ensures c in r[id].children <==> c in s[id].children
    {
      assert c in r[id].children <==> c in multiset(r[id].children);
      assert c in s[id].children <==> c in multiset(s[id].children);
    }
  }

  lemma ReorderedSynced(s: Store, r: Store)
    requires Reordered(s, r) && AllSynced(s)
    requires forall id, c :: id in s ==> (c in r[id].children <==> c in s[id].children)
    ensures AllSynced(r)
  {
    assert forall id :: id in r ==> Key(r, id) == Key(s, id);
    forall id | id in r
      ensures Synced(r, id)
    {
      NoDuplicatesPermutation(s[id].children, r[id].children);
    }
  }

  lemma ReorderedClosedLinks(s: Store, r: Store)
    requires Reordered(s, r) && Closed(s) && ParentLinks(s) && GamesAreLeaves(s)
    requires forall id, c :: id in s ==> (c in r[id].children <==> c in s[id].children)
    ensures Closed(r) && ParentLinks(r) && GamesAreLeaves(r)
  {
    assert Closed(r);
    forall id | id in r && r[id].kind == Game
      ensures r[id].children == []
    {
      assert multiset(r[id].children) == multiset{};
    }
    assert ParentLinks(r) by {
      assert forall id :: id in s ==> r[id].parent == s[id].parent;
    }
  }

  /** `sort` keeps the tree well formed: each level is a permutation of
      itself and the lookup maps are untouched. */
  lemma SortTreeKeepsWellFormed(s: Store, root: NodeId, less: (NodeId, NodeId) -> bool, ascending: bool, rank: map<NodeId, nat>)
    requires WellFormed(s) && root in s && Ranked(s, rank) && Sorting.StrictWeakOrder(less)
    ensures WellFormed(SortTree(s, root, less, ascending, rank))
  {
    var r := SortTree(s, root, less, ascending, rank);
    assert Reordered(s, r);
    ReorderedSameMembers(s, r);
    ReorderedSynced(s, r);
    ReorderedClosedLinks(s, r);
  }
}

=== FILE: gui_component.dfy ===
/** The animation slots of a GUI component (es-core/src/GuiComponent.h).
    A component has `MAX_ANIMATIONS` slots, each empty or holding one
    running animation. The slot operations report whether the slot was
    occupied, and differ in whether the animation's finished callback runs.
    Animations and their controller are not part of this model beyond what
    the header promises: an animation is its duration, start delay,
    elapsed time, direction and callback, and it completes once the elapsed
    time covers delay and duration. Callbacks are named by identifiers; an
    operation reports the callbacks it ran, in order. */
module GuiComponent {
  import opened Common

  const MAX_ANIMATIONS: nat := 4

  type CallbackId = nat

  datatype Anim = Anim(duration: nat, delay: nat, elapsed: nat, reverse: bool, callback: Option<CallbackId>)

  type Slots = s: seq<Option<Anim>> | |s| == MAX_ANIMATIONS witness [None, None, None, None]

  /** The outcome of a slot operation: the new slots, the operation's
      boolean result, the callbacks it ran, and the animation parameter it
      applied last (a value in [0, 1]), if any. */
  datatype Step = Step(slots: Slots, ok: bool, fired: seq<CallbackId>, applied: Option<real>)

  function Callbacks(a: Anim): seq<CallbackId> {
    if a.callback.Some? then [a.callback.value] else []
  }

  /** `isAnimationPlaying`: a slot plays exactly when stopping or
      cancelling it would report success. */
  function IsAnimationPlaying(slots: Slots, slot: nat): (b: bool)
    requires slot < MAX_ANIMATIONS
    ensures b <==> StopAnimation(slots, slot).ok
    ensures b <==> CancelAnimation(slots, slot).ok
  {
    slots[slot].Some?
  }

  /** The animation parameter at an elapsed time, run backwards when the
      animation is reversed. */
  function Progress(a: Anim): (t: real)
    ensures 0.0 <= t <= 1.0
  {
    var forward :=
      if a.elapsed >= a.delay + a.duration then 1.0
      else if a.elapsed <= a.delay then 0.0
      else (a.elapsed - a.delay) as real / a.duration as real;
    if a.reverse then 1.0 - forward else forward
  }

  predicate Completed(a: Anim) {
    a.elapsed >= a.delay + a.duration
  }

  /** `setAnimation`: the slot holds the new animation from time zero. A
      previous occupant is deleted, and deletion runs its callback. */
  function SetAnimation(slots: Slots, duration: nat, delay: nat, callback: Option<CallbackId>, reverse: bool, slot: nat): (r: Step)
    requires slot < MAX_ANIMATIONS
    ensures r.slots[slot] == Some(Anim(duration, delay, 0, reverse, callback))
    ensures r.fired == (if slots[slot].Some? then Callbacks(slots[slot].value) else [])
    ensures forall i :: 0 <= i < MAX_ANIMATIONS && i != slot ==> r.slots[i] == slots[i]
  {
    var fired := if slots[slot].Some? then Callbacks(slots[slot].value) else [];
    Step(slots[slot := Some(Anim(duration, delay, 0, reverse, callback))], true, fired, None)
  }

  /** `setAnimation` with its default arguments: no delay, no callback,
      forwards, slot 0. */
  function SetAnimationDefaults(slots: Slots, duration: nat): (r: Step)
    ensures r.slots[0] == Some(Anim(duration, 0, 0, false, None))
    ensures IsAnimationPlaying(r.slots, 0)
    ensures forall i :: 1 <= i < MAX_ANIMATIONS ==> r.slots[i] == slots[i]
  {
    SetAnimation(slots, duration, 0, None, false, 0)
  }

  /** `stopAnimation`: the slot is emptied and the animation's callback runs. */
  function StopAnimation(slots: Slots, slot: nat): (r: Step)
    requires slot < MAX_ANIMATIONS
    ensures r.ok <==> slots[slot].Some?
    ensures r.slots == slots[slot := None]
    ensures r.fired == (if slots[slot].Some? then Callbacks(slots[slot].value) else [])
  {
    if slots[slot].Some? then Step(slots[slot := None], true, Callbacks(slots[slot].value), None)
    else Step(slots, false, [], None)
  }

  /** `cancelAnimation`: the slot is emptied without running the callback;
      the result says whether there was an animation to cancel. */
  function CancelAnimation(slots: Slots, slot: nat): (r: Step)
    requires slot < MAX_ANIMATIONS
    ensures r.ok <==> slots[slot].Some?
    ensures r.slots == slots[slot := None]
    ensures r.fired == [] && r.applied == None
  {
    if slots[slot].Some? then Step(slots[slot := None], true, [], None)
    else Step(slots, false, [], None)
  }

  /** `finishAnimation`: skips to the end (the completion value is applied),
      runs the callback and empties the slot. */
  function FinishAnimation(slots: Slots, slot: nat): (r: Step)
    requires slot < MAX_ANIMATIONS
    ensures r.ok <==> slots[slot].Some?
    ensures r.slots == slots[slot := None]
    ensures slots[slot].Some? ==>
      && r.fired == Callbacks(slots[slot].value)
      && r.applied == Some(if slots[slot].value.reverse then 0.0 else 1.0)
    ensures slots[slot].None? ==> r.fired == [] && r.applied == None
  {
    if slots[slot].None? then Step(slots, false, [], None)
    else
      var a := slots[slot].value;
      var done := a.(elapsed := a.delay + a.duration);
      Step(slots[slot := None], true, Callbacks(a), Some(Progress(done)))
  }

  /** `advanceAnimation`: moves the slot's animation on by `time` and
      applies its parameter once past the delay; a completed animation is
      deleted, running its callback. */
  function AdvanceAnimation(slots: Slots, slot: nat, time: nat): (r: Step)
    requires slot < MAX_ANIMATIONS
    ensures r.ok <==> slots[slot].Some?
    ensures slots[slot].None? ==> r == Step(slots, false, [], None)
    ensures slots[slot].Some? ==>
      var a := slots[slot].value.(elapsed := slots[slot].value.elapsed + time);
      && (Completed(a) ==> r.slots == slots[slot := None] && r.fired == Callbacks(a))
      && (!Completed(a) ==> r.slots == slots[slot := Some(a)] && r.fired == [])
    ensures forall i :: 0 <= i < MAX_ANIMATIONS && i != slot ==> r.slots[i] == slots[i]
  {
    if slots[slot].None? then Step(slots, false, [], None)
    else
      var a := slots[slot].value.(elapsed := slots[slot].value.elapsed + time);
      var applied := if a.elapsed >= a.delay then Some(Progress(a)) else None;
      if Completed(a) then Step(slots[slot := None], true, Callbacks(a), applied)
      else Step(slots[slot := Some(a)], true, [], applied)
  }

  /** `isAnimationReversed`. An empty slot holds no animation to ask, so
      the question has no answer there. */
  function IsAnimationReversed(slots: Slots, slot: nat): (b: Option<bool>)
    requires slot < MAX_ANIMATIONS
    ensures b.None? <==> !StopAnimation(slots, slot).ok
    ensures b.Some? ==> (b.value <==> FinishAnimation(slots, slot).applied == Some(0.0))
  {
    if slots[slot].Some? then Some(slots[slot].value.reverse) else None
  }

  /** `getAnimationTime`: the elapsed time of the slot's animation, which
      an empty slot does not have. */
  function GetAnimationTime(slots: Slots, slot: nat): (t: Option<nat>)
    requires slot < MAX_ANIMATIONS
    ensures t.None? <==> !StopAnimation(slots, slot).ok
    ensures t.Some? ==>
      (t.value >= slots[slot].value.delay + slots[slot].value.duration <==> AdvanceAnimation(slots, slot, 0).slots[slot].None?)
    ensures t.Some? ==> forall time :: AdvanceAnimation(slots, slot, time).slots[slot].Some? ==>
      AdvanceAnimation(slots, slot, time).slots[slot].value.elapsed == t.value + time
  {
    if slots[slot].Some? then Some(slots[slot].value.elapsed) else None
  }

  /** A newly set animation is playing from time zero in the requested
      direction, and advancing it short of completion adds the step to its
      time without running anything. */
  lemma SetThenAdvance(slots: Slots, duration: nat, delay: nat, callback: Option<CallbackId>, reverse: bool, slot: nat, time: nat)
    requires slot < MAX_ANIMATIONS
    requires time < delay + duration
    ensures var set1 := SetAnimation(slots, duration, delay, callback, reverse, slot).slots;
      && IsAnimationPlaying(set1, slot)
      && GetAnimationTime(set1, slot) == Some(0)
      && IsAnimationReversed(set1, slot) == Some(reverse)
      && var adv := AdvanceAnimation(set1, slot, time);
      && adv.ok && adv.fired == []
      && IsAnimationPlaying(adv.slots, slot)
      && GetAnimationTime(adv.slots, slot) == Some(time)
  {
  }

  /** `updateSelf`: advances every occupied slot by the same time, slot 0
      first, collecting the callbacks of the animations that complete. */
  function UpdateSelf(slots: Slots, deltaTime: nat): (r: Step)
    ensures forall i :: 0 <= i < MAX_ANIMATIONS ==>
      (r.slots[i].None? <==> slots[i].None? || Completed(slots[i].value.(elapsed := slots[i].value.elapsed + deltaTime)))
    ensures forall i :: 0 <= i < MAX_ANIMATIONS && r.slots[i].Some? ==>
      r.slots[i].value == slots[i].value.(elapsed := slots[i].value.elapsed + deltaTime)
  {
    UpdateFrom(slots, deltaTime, 0)
  }

  function UpdateFrom(slots: Slots, deltaTime: nat, i: nat): (r: Step)
    requires i <= MAX_ANIMATIONS
    ensures forall k :: 0 <= k < i ==> r.slots[k] == slots[k]
    ensures forall k :: i <= k < MAX_ANIMATIONS ==>
      (r.slots[k].None? <==> slots[k].None? || Completed(slots[k].value.(elapsed := slots[k].value.elapsed + deltaTime)))
    ensures forall k :: i <= k < MAX_ANIMATIONS && r.slots[k].Some? ==>
      r.slots[k].value == slots[k].value.(elapsed := slots[k].value.elapsed + deltaTime)
    decreases MAX_ANIMATIONS - i
  {
    if i == MAX_ANIMATIONS then Step(slots, true, [], None)
    else
      var here := AdvanceAnimation(slots, i, deltaTime);
      var rest := UpdateFrom(here.slots, deltaTime, i + 1);
      Step(rest.slots, true, here.fired + rest.fired, if rest.applied.Some? then rest.applied else here.applied)
  }

  /** `finishAnimation` is advancing by any time that completes the
      animation: the same slots, result, callbacks and final parameter. */
  lemma FinishIsAdvanceToEnd(slots: Slots, slot: nat, time: nat)
    requires slot < MAX_ANIMATIONS
    requires slots[slot].Some? ==> Completed(slots[slot].value.(elapsed := slots[slot].value.elapsed + time))
    ensures FinishAnimation(slots, slot) == AdvanceAnimation(slots, slot, time)
  {
  }

  /** `updateSelf` is advancing slot 0, then 1, 2 and 3 by the same time:
      the final slots, the callbacks in slot order, and the parameter of the
      highest slot that applied one. */
  lemma UpdateSelfIsFourAdvances(slots: Slots, deltaTime: nat)
    ensures var s0 := AdvanceAnimation(slots, 0, deltaTime);
      var s1 := AdvanceAnimation(s0.slots, 1, deltaTime);
      var s2 := AdvanceAnimation(s1.slots, 2, deltaTime);
      var s3 := AdvanceAnimation(s2.slots, 3, deltaTime);
      var r := UpdateSelf(slots, deltaTime);
      && r.ok
      && r.slots == s3.slots
      && r.fired == s0.fired + s1.fired + s2.fired + s3.fired
      && r.applied == (if s3.applied.Some? then s3.applied else if s2.applied.Some? then s2.applied
                       else if s1.applied.Some? then s1.applied else s0.applied)
  {
    var s0 := AdvanceAnimation(slots, 0, deltaTime);
    var s1 := AdvanceAnimation(s0.slots, 1, deltaTime);
    var s2 := AdvanceAnimation(s1.slots, 2, deltaTime);
    var s3 := AdvanceAnimation(s2.slots, 3, deltaTime);
    var u3 := UpdateFrom(s2.slots, deltaTime, 3);
    assert u3.fired == s3.fired + [];
    var u2 := UpdateFrom(s1.slots, deltaTime, 2);
    assert u2.fired == s2.fired + u3.fired;
    var u1 := UpdateFrom(s0.slots, deltaTime, 1);
    assert u1.fired == s1.fired + u2.fired;
    assert UpdateFrom(slots, deltaTime, 0).fired == s0.fired + u1.fired;
  }

  /** What `isAnimationPlaying` reports after each slot operation: set
      makes the slot play, stop, cancel and finish leave it idle, and an
      advance keeps it playing exactly while the animation is unfinished.
      Other slots report as before. */
  lemma PlayingAfterSlotOperations(slots: Slots, slot: nat, other: nat, time: nat, duration: nat, delay: nat, callback: Option<CallbackId>, reverse: bool)
    requires slot < MAX_ANIMATIONS && other < MAX_ANIMATIONS && other != slot
    ensures IsAnimationPlaying(SetAnimation(slots, duration, delay, callback, reverse, slot).slots, slot)
    ensures !IsAnimationPlaying(StopAnimation(slots, slot).slots, slot)
    ensures !IsAnimationPlaying(CancelAnimation(slots, slot).slots, slot)
    ensures !IsAnimationPlaying(FinishAnimation(slots, slot).slots, slot)
    ensures IsAnimationPlaying(AdvanceAnimation(slots, slot, time).slots, slot) <==>
      IsAnimationPlaying(slots, slot) && GetAnimationTime(slots, slot).value + time < slots[slot].value.delay + slots[slot].value.duration
    ensures IsAnimationPlaying(SetAnimation(slots, duration, delay, callback, reverse, slot).slots, other) == IsAnimationPlaying(slots, other)
    ensures IsAnimationPlaying(StopAnimation(slots, slot).slots, other) == IsAnimationPlaying(slots, other)
    ensures IsAnimationPlaying(AdvanceAnimation(slots, slot, time).slots, other) == IsAnimationPlaying(slots, other)
  {
  }

  /** Cancelling and stopping leave the same empty slot and report the same
      result; only stopping runs the callback. */
  lemma CancelIsStopWithoutCallback(slots: Slots, slot: nat)
    requires slot < MAX_ANIMATIONS
    ensures CancelAnimation(slots, slot).slots == StopAnimation(slots, slot).slots
    ensures CancelAnimation(slots, slot).ok == StopAnimation(slots, slot).ok
    ensures CancelAnimation(slots, slot).fired == []
    ensures slots[slot].Some? && slots[slot].value.callback.Some? ==>
      StopAnimation(slots, slot).fired == [slots[slot].value.callback.value]
  {
  }

  /** An animation advanced in two steps that together cover its remaining
      time runs its callback exactly once and leaves its slot empty; a step
      on the emptied slot reports that nothing was there. */
  lemma SplitAdvanceFiresOnce(slots: Slots, slot: nat, a: nat, b: nat)
    requires slot < MAX_ANIMATIONS && slots[slot].Some? && slots[slot].value.callback.Some?
    requires slots[slot].value.elapsed + a + b >= slots[slot].value.delay + slots[slot].value.duration
    ensures var first := AdvanceAnimation(slots, slot, a);
      var second := AdvanceAnimation(first.slots, slot, b);
      && first.fired + second.fired == [slots[slot].value.callback.value]
      && second.slots[slot].None?
      && (first.slots[slot].None? ==> !second.ok)
  {
    var anim := slots[slot].value;
    var first := AdvanceAnimation(slots, slot, a);
    var moved := anim.(elapsed := anim.elapsed + a);
    if !Completed(moved) {
      assert first.slots[slot] == Some(moved);
      var again := moved.(elapsed := moved.elapsed + b);
      assert again.callback == anim.callback;
      assert Completed(again);
    }
  }

  /** `stopAllAnimations`: stops every slot in order, running the
      callbacks of the occupants from slot 0 up. */
  function StopAllAnimations(slots: Slots): (r: Step)
    ensures forall i :: 0 <= i < MAX_ANIMATIONS ==> r.slots[i].None?
    ensures r.fired == StopFrom(slots, 0)
  {
    Step([None, None, None, None], true, StopFrom(slots, 0), None)
  }

  /** The callbacks of the occupied slots from `i` upwards. */
  function StopFrom(slots: Slots, i: nat): (fired: seq<CallbackId>)
    requires i <= MAX_ANIMATIONS
    ensures |fired| <= MAX_ANIMATIONS - i
    ensures forall k :: i <= k < MAX_ANIMATIONS && slots[k].Some? && slots[k].value.callback.Some? ==>
      slots[k].value.callback.value in fired
    decreases MAX_ANIMATIONS - i
  {
    if i == MAX_ANIMATIONS then []
    else SlotCallbacks(slots, i) + StopFrom(slots, i + 1)
  }

  /** The callback stopping one slot runs. */
  function SlotCallbacks(slots: Slots, i: nat): seq<CallbackId>
    requires i < MAX_ANIMATIONS
  {
    if slots[i].Some? then Callbacks(slots[i].value) else []
  }

  lemma StopFromUnfold(slots: Slots, i: nat)
    requires i < MAX_ANIMATIONS
    ensures StopFrom(slots, i) == SlotCallbacks(slots, i) + StopFrom(slots, i + 1)
  {
  }

  lemma StopFromAll(slots: Slots)
    ensures StopFrom(slots, 0) ==
      SlotCallbacks(slots, 0) + SlotCallbacks(slots, 1) + SlotCallbacks(slots, 2) + SlotCallbacks(slots, 3)
  {
    StopFromUnfold(slots, 0);
    StopFromUnfold(slots, 1);
    StopFromUnfold(slots, 2);
    StopFromUnfold(slots, 3);
  }

  /** `stopAllAnimations` is stopping slot 0, then 1, 2 and 3: the same
      empty slots and the same callbacks in the same order. */
  lemma StopAllIsFourStops(slots: Slots)
    ensures var t0 := StopAnimation(slots, 0);
      var t1 := StopAnimation(t0.slots, 1);
      var t2 := StopAnimation(t1.slots, 2);
      var t3 := StopAnimation(t2.slots, 3);
      var r := StopAllAnimations(slots);
      && r.slots == t3.slots
      && r.fired == t0.fired + t1.fired + t2.fired + t3.fired
  {
    var t0 := StopAnimation(slots, 0);
    var t1 := StopAnimation(t0.slots, 1);
    var t2 := StopAnimation(t1.slots, 2);
    var t3 := StopAnimation(t2.slots, 3);
    assert t3.slots == [None, None, None, None] by {
      assert t0.slots == slots[0 := None];
      assert t1.slots == slots[0 := None][1 := None];
      assert t2.slots == slots[0 := None][1 := None][2 := None];
      assert t3.slots == slots[0 := None][1 := None][2 := None][3 := None];
    }
    assert t0.fired == SlotCallbacks(slots, 0);
    assert t1.fired == SlotCallbacks(slots, 1);
    assert t2.fired == SlotCallbacks(slots, 2);
    assert t3.fired == SlotCallbacks(slots, 3);
    StopFromAll(slots);
  }

  /** `cancelAllAnimations`: every slot emptied, no callback run. */
  function CancelAllAnimations(slots: Slots): (r: Step)
    ensures forall i :: 0 <= i < MAX_ANIMATIONS ==> r.slots[i].None?
    ensures r.fired == []
  {
    Step([None, None, None, None], true, [], None)
  }

  /** The transform and slot fields of a freshly constructed component. */
  datatype Component = Component(rotation: real, scale: real, defaultZIndex: real, zIndex: real, slots: Slots)

  /** The field initialisers of the header: no rotation, unit scale, both
      z-indices zero; the slots start empty. */
  function Fresh(): (c: Component)
    ensures c.rotation == 0.0 && c.scale == 1.0
    ensures c.defaultZIndex == 0.0 && c.zIndex == 0.0
    ensures forall i :: 0 <= i < MAX_ANIMATIONS ==> !IsAnimationPlaying(c.slots, i)
  {
    Component(0.0, 1.0, 0.0, 0.0, [None, None, None, None])
  }

  /** A fresh component has nothing to advance, finish or cancel. */
  lemma FreshComponentIsIdle(slot: nat, time: nat)
    requires slot < MAX_ANIMATIONS
    ensures !AdvanceAnimation(Fresh().slots, slot, time).ok
    ensures !FinishAnimation(Fresh().slots, slot).ok
    ensures !CancelAnimation(Fresh().slots, slot).ok
    ensures StopAllAnimations(Fresh().slots).fired == []
  {
  }
}

=== FILE: mame_names.dfy ===
/** The MAME ROM-name lookup (es-app/src/MameNames.cpp). The table is a
    flat array of C strings: key, value, key, value, ... ended by a NULL
    key. Keys are ROM names, values the titles shown to the user. The
    table contents are external data, so the table is a parameter. */
module MameNames {
  import opened Common

  /** The flat array; `None` stands for a NULL pointer. */
  type Table = seq<Option<string>>

  /** The key of the k-th pair. */
  function KeyAt(t: Table, k: nat): Option<string>
    requires 2 * k < |t|
  {
    t[2 * k]
  }

  /** The value of the k-th pair. */
  function ValueAt(t: Table, k: nat): Option<string>
    requires 2 * k + 1 < |t|
  {
    t[2 * k + 1]
  }

  /** Some pair position holds the NULL sentinel. */
  ghost predicate Terminated(t: Table) {
    exists n: nat :: 2 * n < |t| && KeyAt(t, n).None?
  }

  /** `n` pairs precede the first NULL key. */
  ghost predicate IsTitleCount(t: Table, n: nat) {
    && 2 * n < |t|
    && KeyAt(t, n).None?
    && forall k: nat :: k < n ==> KeyAt(t, k).Some?
  }

  /** The title count is determined by the table. */
  lemma TitleCountUnique(t: Table, a: nat, b: nat)
    requires IsTitleCount(t, a) && IsTitleCount(t, b)
    ensures a == b
  {
  }

  /** `getMameTitleCount`: steps over the table two entries at a time,
      counting pairs until it meets the NULL key. */
  method TitleCount(t: Table) returns (count: nat)
    requires Terminated(t)
    ensures IsTitleCount(t, count)
  {
    ghost var n: nat :| 2 * n < |t| && KeyAt(t, n).None?;
    var i := 0;
    count := 0;
    while t[i] != None
      invariant i == 2 * count && count <= n
      invariant forall k: nat :: k < count ==> KeyAt(t, k).Some?
      decreases n - count
    {
      i := i + 2;
      count := count + 1;
    }
  }

  /** Every one of the `count` pairs has a value as well as a key. */
  ghost predicate ValuesPresent(t: Table, count: nat)
    requires IsTitleCount(t, count)
  {
    forall k: nat :: k < count ==> ValueAt(t, k).Some?
  }

  /** The sign of `strcmp`: lexicographic order of character codes, a
      proper prefix ordering first. */
  function Strcmp(a: string, b: string): (c: int)
    ensures -1 <= c <= 1
  {
    if a == [] && b == [] then 0
    else if a == [] then -1
    else if b == [] then 1
    else if a[0] < b[0] then -1
    else if a[0] > b[0] then 1
    else Strcmp(a[1..], b[1..])
  }

  lemma {:induction false} StrcmpZeroIff(a: string, b: string)
    ensures Strcmp(a, b) == 0 <==> a == b
  {
    if a != [] && b != [] && a[0] == b[0] {
      StrcmpZeroIff(a[1..], b[1..]);
      assert a == [a[0]] + a[1..] && b == [b[0]] + b[1..];
    }
  }

  lemma {:induction false} StrcmpAntisymmetric(a: string, b: string)
    ensures Strcmp(a, b) == -Strcmp(b, a)
  {
    if a != [] && b != [] && a[0] == b[0] {
      StrcmpAntisymmetric(a[1..], b[1..]);
    }
  }

  lemma {:induction false} StrcmpTransitive(a: string, b: string, c: string)
    requires Strcmp(a, b) < 0 && Strcmp(b, c) < 0
    ensures Strcmp(a, c) < 0
  {
    if a != [] && b != [] && c != [] && a[0] == b[0] && b[0] == c[0] {
      StrcmpTransitive(a[1..], b[1..], c[1..]);
    }
  }

  /** Keys strictly ascending by `strcmp`, as the binary search assumes. */
  ghost predicate KeysAscending(t: Table, count: nat)
    requires IsTitleCount(t, count)
  {
    forall i: nat, j: nat :: i < j < count ==> Strcmp(KeyAt(t, i).value, KeyAt(t, j).value) < 0
  }

  /** `getRealName`: binary search of the keys for `from`. The value paired
      with the matching key is returned, or `from` itself when the search
      misses. The cached title count is the parameter `count`. */
  method RealName(t: Table, count: nat, from: string) returns (r: string)
    requires IsTitleCount(t, count) && ValuesPresent(t, count)
    ensures r == from || exists k: nat :: k < count && KeyAt(t, k) == Some(from) && ValueAt(t, k) == Some(r)
    ensures (forall k: nat :: k < count ==> KeyAt(t, k) != Some(from)) ==> r == from
    ensures KeysAscending(t, count) ==> forall k: nat :: k < count && KeyAt(t, k) == Some(from) ==> ValueAt(t, k) == Some(r)
  {
    var iStart := 0;
    var iEnd := count;
    while iStart < iEnd
      invariant 0 <= iStart <= iEnd <= count
      invariant KeysAscending(t, count) ==> forall k: nat :: k < iStart ==> Strcmp(KeyAt(t, k).value, from) < 0
      invariant KeysAscending(t, count) ==> forall k: nat :: iEnd <= k < count ==> Strcmp(KeyAt(t, k).value, from) > 0
      decreases iEnd - iStart
    {
      var iMiddle := (iStart + iEnd) / 2;
      var iKey := iMiddle * 2;
      assert t[iKey] == KeyAt(t, iMiddle) && KeyAt(t, iMiddle).Some?;
      assert t[iKey + 1] == ValueAt(t, iMiddle) && ValueAt(t, iMiddle).Some?;
      var key := t[iKey].value;
      var comp := Strcmp(key, from);
      if comp < 0 {
        if KeysAscending(t, count) {
          forall k: nat | k < iMiddle + 1
            ensures Strcmp(KeyAt(t, k).value, from) < 0
          {
            if k < iMiddle {
              assert Strcmp(KeyAt(t, k).value, KeyAt(t, iMiddle).value) < 0;
              StrcmpTransitive(KeyAt(t, k).value, key, from);
            }
          }
        }
        iStart := iMiddle + 1;
      } else if comp > 0 {
        if KeysAscending(t, count) {
          forall k: nat | iMiddle <= k < count
            ensures Strcmp(KeyAt(t, k).value, from) > 0
          {
            if k > iMiddle {
              assert Strcmp(KeyAt(t, iMiddle).value, KeyAt(t, k).value) < 0;
              StrcmpAntisymmetric(key, from);
              StrcmpTransitive(from, key, KeyAt(t, k).value);
              StrcmpAntisymmetric(from, KeyAt(t, k).value);
            }
          }
        }
        iEnd := iMiddle;
      } else {
        StrcmpZeroIff(key, from);
        if KeysAscending(t, count) {
          forall k: nat | k < count && KeyAt(t, k) == Some(from)
            ensures k == iMiddle
          {
            StrcmpZeroIff(from, from);
          }
        }
        return t[iKey + 1].value;
      }
    }
    if KeysAscending(t, count) {
      forall k: nat | k < count
        ensures KeyAt(t, k) != Some(from)
      {
        StrcmpZeroIff(KeyAt(t, k).value, from);
      }
    }
    return from;
  }
}

=== FILE: sorting.dfy ===
/** Sorting of a sequence by a caller-supplied comparator, as `std::sort`
    does it: the only promise is that the result is a permutation of the
    input that the comparator considers ordered. Stability is not promised. */
module Sorting {

  /** The requirement `std::sort` places on its comparator: a strict weak
      ordering (irreflexive, transitive, and incomparability is transitive). */
  ghost predicate StrictWeakOrder<T(!new)>(less: (T, T) -> bool) {
    && (forall x :: !less(x, x))
    && (forall x, y, z :: less(x, y) && less(y, z) ==> less(x, z))
    && (forall x, y, z :: !less(x, y) && !less(y, z) ==> !less(x, z))
  }

  /** No later element is strictly less than an earlier one. */
  ghost predicate SortedBy<T>(less: (T, T) -> bool, xs: seq<T>) {
    forall i, j :: 0 <= i < j < |xs| ==> !less(xs[j], xs[i])
  }

  /** Every later element is considered no greater than an earlier one:
      the order `std::reverse` leaves behind after an ascending sort. */
  ghost predicate ReverseSortedBy<T>(less: (T, T) -> bool, xs: seq<T>) {
    forall i, j :: 0 <= i < j < |xs| ==> !less(xs[i], xs[j])
  }

  function Reverse<T>(xs: seq<T>): (r: seq<T>)
    ensures |r| == |xs|
    ensures forall i :: 0 <= i < |xs| ==> r[i] == xs[|xs| - 1 - i]
  {
    if xs == [] then [] else Reverse(xs[1..]) + [xs[0]]
  }

  lemma ReversePreservesMultiset<T>(xs: seq<T>)
    ensures multiset(Reverse(xs)) == multiset(xs)
  {
    if xs != [] {
      ReversePreservesMultiset(xs[1..]);
      assert xs == [xs[0]] + xs[1..];
    }
  }

  lemma {:induction false} ReverseInvolutive<T>(xs: seq<T>)
    ensures Reverse(Reverse(xs)) == xs
  {
    var r := Reverse(Reverse(xs));
    assert |r| == |xs|;
    forall i | 0 <= i < |xs|
      ensures r[i] == xs[i]
    {
    }
  }

  /** Reversing a sorted sequence yields a reverse-sorted one. */
  lemma ReverseOfSorted<T>(less: (T, T) -> bool, xs: seq<T>)
    requires SortedBy(less, xs)
    ensures ReverseSortedBy(less, Reverse(xs))
  {
    var r := Reverse(xs);
    forall i, j | 0 <= i < j < |r|
      ensures !less(r[i], r[j])
    {
      assert r[i] == xs[|xs| - 1 - i] && r[j] == xs[|xs| - 1 - j];
    }
  }

  /** No element of `xs` is strictly less than `b`. */
  ghost predicate NoneBelow<T>(less: (T, T) -> bool, b: T, xs: seq<T>) {
    forall k :: 0 <= k < |xs| ==> !less(xs[k], b)
  }

  lemma SortedCons<T>(less: (T, T) -> bool, h: T, xs: seq<T>)
    requires NoneBelow(less, h, xs) && SortedBy(less, xs)
    ensures SortedBy(less, [h] + xs)
  {
    var r := [h] + xs;
    forall i, j | 0 <= i < j < |r|
      ensures !less(r[j], r[i])
    {
      if i > 0 {
        assert r[i] == xs[i - 1] && r[j] == xs[j - 1];
      } else {
        assert r[j] == xs[j - 1];
      }
    }
  }

  lemma NoneBelowCons<T>(less: (T, T) -> bool, b: T, h: T, xs: seq<T>)
    requires !less(h, b) && NoneBelow(less, b, xs)
    ensures NoneBelow(less, b, [h] + xs)
  {
    var r := [h] + xs;
    forall k | 0 <= k < |r|
      ensures !less(r[k], b)
    {
      if k > 0 {
        assert r[k] == xs[k - 1];
      }
    }
  }

  /** In a sorted sequence nothing after the head is strictly below it,
      and everything is at least as great as whatever the head is not below. */
  lemma SortedTail<T(!new)>(less: (T, T) -> bool, ys: seq<T>)
    requires StrictWeakOrder(less) && SortedBy(less, ys) && ys != []
    ensures SortedBy(less, ys[1..])
    ensures NoneBelow(less, ys[0], ys[1..])
    ensures forall b :: NoneBelow(less, b, ys) ==> NoneBelow(less, b, ys[1..])
  {
    forall k | 0 <= k < |ys| - 1
      ensures !less(ys[1..][k], ys[0])
    {
      assert ys[1..][k] == ys[k + 1];
    }
  }

  /** Places `x` after the leading elements strictly less than it,
      keeping `ys` in order. */
  function Insert<T(!new)>(less: (T, T) -> bool, x: T, ys: seq<T>): (r: seq<T>)
    requires StrictWeakOrder(less)
    requires SortedBy(less, ys)
    ensures multiset(r) == multiset(ys) + multiset{x}
    ensures SortedBy(less, r)
    ensures forall b :: NoneBelow(less, b, ys) && !less(x, b) ==> NoneBelow(less, b, r)
  {
    if ys == [] then
      NoneBelowCons(less, x, x, []);
      [x]
    else if less(ys[0], x) then
      SortedTail(less, ys);
      var rest := Insert(less, x, ys[1..]);
      assert ys == [ys[0]] + ys[1..];
      assert !less(x, ys[0]);
      SortedCons(less, ys[0], rest);
      assert forall b :: NoneBelow(less, b, ys) && !less(x, b) ==> NoneBelow(less, b, [ys[0]] + rest) by {
        forall b | NoneBelow(less, b, ys) && !less(x, b)
          ensures NoneBelow(less, b, [ys[0]] + rest)
        {
          assert !less(ys[0], b);
          NoneBelowCons(less, b, ys[0], rest);
        }
      }
      [ys[0]] + rest
    else
      InsertFront(less, x, ys);
      [x] + ys
  }

  lemma InsertFront<T(!new)>(less: (T, T) -> bool, x: T, ys: seq<T>)
    requires StrictWeakOrder(less) && SortedBy(less, ys) && ys != [] && !less(ys[0], x)
    ensures SortedBy(less, [x] + ys)
    ensures forall b :: NoneBelow(less, b, ys) && !less(x, b) ==> NoneBelow(less, b, [x] + ys)
  {
    forall k | 0 <= k < |ys|
      ensures !less(ys[k], x)
    {
      if k > 0 {
        assert !less(ys[k], ys[0]);
      }
    }
    SortedCons(less, x, ys);
    forall b | NoneBelow(less, b, ys) && !less(x, b)
      ensures NoneBelow(less, b, [x] + ys)
    {
      NoneBelowCons(less, b, x, ys);
    }
  }

  /** An insertion sort: one sorted permutation among those `std::sort`
      may produce. */
  function SortSeq<T(!new)>(less: (T, T) -> bool, xs: seq<T>): (r: seq<T>)
    requires StrictWeakOrder(less)
    ensures multiset(r) == multiset(xs)
    ensures SortedBy(less, r)
  {
    if xs == [] then []
    else
      assert xs == [xs[0]] + xs[1..];
      Insert(less, xs[0], SortSeq(less, xs[1..]))
  }
}

=== FILE: text_component.dfy ===
/** The state rules of the text widget (es-core/src/components/TextComponent.cpp):
    RGBA colours with a remembered base alpha, opacity fading, the
    auto-extent flags and the extent they compute, the re-layout of
    `onTextChanged` with its single-line abbreviation, the colour of the
    text cache, and the theme properties `applyTheme` reads. Fonts are
    external: a font is its line height and its measures, and the text
    cache is reduced to the string and colour it is built from. */
module TextComponent {
  import opened Common

  /** `unsigned int`, the RGBA colour type. */
  newtype u32 = x: int | 0 <= x < 0x1_0000_0000

  /** `unsigned char`, an alpha or opacity byte. */
  newtype u8 = x: int | 0 <= x < 0x100

  datatype Alignment = AlignLeft | AlignCenter | AlignRight

  /** `mTextCache`: nothing, or the string it was built from (to be wrapped
      by the font when `wrapped`) and the colour it draws in. */
  datatype Cache = NoCache | Built(content: string, wrapped: bool, color: u32)

  datatype TextState = TextState(
    color: u32,            // RGBA, alpha in the low byte
    colorOpacity: u8,      // the alpha `setColor` was given
    bgColor: u32,
    bgColorOpacity: u8,
    opacity: u8,           // the component opacity last set
    renderBackground: bool,
    autoWidth: bool,        // mAutoCalcExtent.x()
    autoHeight: bool,       // mAutoCalcExtent.y()
    alignment: Alignment,
    width: real,
    height: real,
    text: string,
    uppercase: bool,
    lineSpacing: real,
    cache: Cache)

  /** `c & 0x000000FF`: the alpha byte of an RGBA colour. */
  function Alpha(c: u32): u8 {
    (c % 0x100) as u8
  }

  /** `c & 0xFFFFFF00`: the colour with its alpha cleared. */
  function Rgb(c: u32): u32 {
    c - c % 0x100
  }

  /** `rgb | a` for a colour whose alpha byte is clear. */
  function WithAlpha(c: u32, a: u8): (r: u32)
    ensures Rgb(r) == Rgb(c) && Alpha(r) == a
  {
    Rgb(c) + a as u32
  }

  lemma RgbAlphaDetermineColor(c: u32, d: u32)
    requires Rgb(c) == Rgb(d) && Alpha(c) == Alpha(d)
    ensures c == d
  {
  }

  /** `onColorChanged`: an existing cache is recoloured, nothing else. */
  function Recolor(cache: Cache, c: u32): (r: Cache)
    ensures r.Built? <==> cache.Built?
    ensures r.Built? ==> r.content == cache.content && r.wrapped == cache.wrapped && r.color == c
  {
    if cache.Built? then cache.(color := c) else cache
  }

  /** `setColor`: stores the colour, remembers its alpha as the base that
      later opacity changes scale, and recolours an existing cache with it. */
  function SetColor(st: TextState, c: u32): (r: TextState)
    ensures r.color == c && Alpha(r.color) == r.colorOpacity
    ensures r.cache == Recolor(st.cache, c)
    ensures r == st.(color := r.color, colorOpacity := r.colorOpacity, cache := r.cache)
  {
    st.(color := c, colorOpacity := Alpha(c), cache := Recolor(st.cache, c))
  }

  /** `setBackgroundColor`: the same for the background box, which the
      cache does not draw. */
  function SetBackgroundColor(st: TextState, c: u32): (r: TextState)
    ensures r.bgColor == c && Alpha(r.bgColor) == r.bgColorOpacity
    ensures r == st.(bgColor := r.bgColor, bgColorOpacity := r.bgColorOpacity)
  {
    st.(bgColor := c, bgColorOpacity := Alpha(c))
  }

  /** What the source's float expression `opacity / 255 * base`, truncated
      to a byte, is assumed to satisfy: full opacity keeps the base alpha,
      zero opacity gives zero, and the result never exceeds the base. */
  ghost predicate ScaleLaws(scale: (u8, u8) -> u8) {
    && (forall a :: scale(0, a) == 0)
    && (forall a :: scale(255, a) == a)
    && (forall o, a :: scale(o, a) <= a)
  }

  /** `setOpacity`: the alpha bytes of text and background become the base
      alphas scaled by the opacity, the colour channels are kept, an
      existing cache takes the new text colour, and the component opacity
      is recorded. */
  function SetOpacity(st: TextState, o: u8, scale: (u8, u8) -> u8): (r: TextState)
    ensures Rgb(r.color) == Rgb(st.color) && Alpha(r.color) == scale(o, st.colorOpacity)
    ensures Rgb(r.bgColor) == Rgb(st.bgColor) && Alpha(r.bgColor) == scale(o, st.bgColorOpacity)
    ensures r.cache == Recolor(st.cache, r.color)
    ensures r.opacity == o
    ensures r == st.(color := r.color, bgColor := r.bgColor, opacity := r.opacity, cache := r.cache)
  {
    var color := WithAlpha(st.color, scale(o, st.colorOpacity));
    st.(color := color,
        bgColor := WithAlpha(st.bgColor, scale(o, st.bgColorOpacity)),
        opacity := o,
        cache := Recolor(st.cache, color))
  }

  /** `getOpacity`: the alpha of the current text colour, which is not the
      opacity last passed to `setOpacity`. */
  function GetOpacity(st: TextState): (a: u8)
    ensures a == Alpha(st.color)
  {
    (st.color % 0x100) as u8
  }

  /** Fading is bounded by the base alpha, and a fade to zero followed by a
      fade back to full restores exactly the colours that were set, in the
      state and in an existing cache. */
  lemma FadeRestoresColors(st: TextState, c: u32, bg: u32, o: u8, scale: (u8, u8) -> u8)
    requires ScaleLaws(scale)
    ensures GetOpacity(SetOpacity(st, o, scale)) <= st.colorOpacity
    ensures var colored := SetBackgroundColor(SetColor(st, c), bg);
      var back := SetOpacity(SetOpacity(colored, 0, scale), 255, scale);
      && back.color == c && back.bgColor == bg && GetOpacity(back) == Alpha(c)
      && back.cache == colored.cache
  {
    var colored := SetBackgroundColor(SetColor(st, c), bg);
    var faded := SetOpacity(colored, 0, scale);
    var back := SetOpacity(faded, 255, scale);
    RgbAlphaDetermineColor(back.color, c);
    RgbAlphaDetermineColor(back.bgColor, bg);
  }

  /** The opacity a caller reads back is the scaled text alpha, which at
      zero opacity is zero whatever opacity the base colour carried. */
  lemma GetOpacityAfterSet(st: TextState, o: u8, scale: (u8, u8) -> u8)
    requires ScaleLaws(scale)
    ensures GetOpacity(SetOpacity(st, 0, scale)) == 0
    ensures GetOpacity(SetOpacity(st, 255, scale)) == st.colorOpacity
  {
  }

  datatype Extent = Extent(width: real, height: real)

  /** A font as the widget uses it: `getHeight()`; `sizeText(text).x()` at
      the font's default line spacing (`measure`); `sizeText(text, spacing)`;
      and `sizeWrappedText(text, width, spacing).y()` (`wrappedHeight`). */
  datatype Font = Font(
    lineHeight: real,
    measure: string -> real,
    sizeText: (string, real) -> Extent,
    wrappedHeight: (string, real, real) -> real)

  /** `mUppercase ? strToUpper(mText) : mText`, the text as shown. */
  function Shown(st: TextState, toUpper: string -> string): string {
    if st.uppercase then toUpper(st.text) else st.text
  }

  /** `Font::getPrevCursor` steps back over at least one character. */
  ghost predicate CursorRetreats(prevCursor: string -> nat) {
    forall t :: |t| > 0 ==> prevCursor(t) < |t|
  }

  const Ellipsis: string := "..."

  /** The text before the first newline. */
  function FirstLine(s: string): (r: string)
    ensures r <= s && '\n' !in r
    ensures |r| < |s| ==> s[|r|] == '\n'
  {
    if s == [] || s[0] == '\n' then [] else [s[0]] + FirstLine(s[1..])
  }

  /** The reference for the abbreviation loop: drop a character at a time
      (as the cursor steps back) until the line is empty or it fits the box
      together with the ellipsis. */
  function TrimToFit(line: string, boxWidth: real, font: Font, prevCursor: string -> nat): (r: string)
    requires CursorRetreats(prevCursor)
    ensures r <= line
    ensures r == [] || font.measure(r) + font.measure(Ellipsis) <= boxWidth
    ensures line != [] && font.measure(line) + font.measure(Ellipsis) > boxWidth ==> |r| < |line|
    ensures r == line <==> line == [] || font.measure(line) + font.measure(Ellipsis) <= boxWidth
    ensures r != line ==> exists q :: r < q <= line && r == q[..prevCursor(q)] && font.measure(q) + font.measure(Ellipsis) > boxWidth
    decreases |line|
  {
    if line != [] && font.measure(line) + font.measure(Ellipsis) > boxWidth then
      var cut := line[..prevCursor(line)];
      var r := TrimToFit(cut, boxWidth, font, prevCursor);
      assert r == cut ==> r < line && r == line[..prevCursor(line)];
      assert r != cut ==> exists q :: r < q <= line && r == q[..prevCursor(q)] && font.measure(q) + font.measure(Ellipsis) > boxWidth;
      r
    else line
  }

  /** The abbreviation loop of `onTextChanged`: cuts the line back at the
      previous cursor position while it and the ellipsis overflow the box. */
  method Abbreviate(line: string, boxWidth: real, font: Font, prevCursor: string -> nat) returns (text: string)
    requires CursorRetreats(prevCursor)
    ensures text == TrimToFit(line, boxWidth, font, prevCursor)
    ensures text <= line
  {
    text := line;
    var size := font.measure(text);
    var abbrevSize := font.measure(Ellipsis);
    while |text| > 0 && size + abbrevSize > boxWidth
      invariant text <= line
      invariant size == font.measure(text)
      invariant TrimToFit(text, boxWidth, font, prevCursor) == TrimToFit(line, boxWidth, font, prevCursor)
      decreases |text|
    {
      var newSize := prevCursor(text);
      text := text[..newSize];
      size := font.measure(text);
    }
  }


  /** The colour `onTextChanged` builds the cache with: the text colour's
      channels and the component opacity as alpha. */
  function CacheColor(st: TextState): (c: u32)
    ensures Rgb(c) == Rgb(st.color) && Alpha(c) == st.opacity
  {
    WithAlpha(st.color, st.opacity)
  }

  /** A box no taller than 1.2 lines holds a single line; a zero height
      means the height is free. */
  predicate IsMultiline(st: TextState, font: Font) {
    st.height == 0.0 || st.height > font.lineHeight * 1.2
  }

  /** The cache `onTextChanged` builds once the extent is calculated: none
      without a font or text; a single-line box keeps the first line only
      and abbreviates it when it overflows or a newline was cut; otherwise
      the text is wrapped. `toUpper` stands for `strToUpper`. */
  function Layout(st: TextState, font: Option<Font>, toUpper: string -> string, prevCursor: string -> nat): (r: Cache)
    requires CursorRetreats(prevCursor)
    ensures r.NoCache? <==> font.None? || st.text == []
    ensures r.Built? ==> r.color == CacheColor(st)
    ensures r.Built? && IsMultiline(st, font.value) ==> r == Built(Shown(st, toUpper), true, CacheColor(st))
    ensures r.Built? && !IsMultiline(st, font.value) ==>
      var line := FirstLine(Shown(st, toUpper));
      if st.width != 0.0 && line != [] && (font.value.measure(line) > st.width || |line| < |Shown(st, toUpper)|)
      then r == Built(TrimToFit(line, st.width, font.value, prevCursor) + Ellipsis, false, CacheColor(st))
      else r == Built(line, true, CacheColor(st))
  {
    if font.None? || st.text == [] then NoCache
    else
      var f := font.value;
      var text := Shown(st, toUpper);
      var multiline := IsMultiline(st, f);
      var line := if multiline then text else FirstLine(text);
      var addAbbrev := !multiline && |line| < |text|;
      if !multiline && st.width != 0.0 && line != [] && (f.measure(line) > st.width || addAbbrev) then
        var p := TrimToFit(line, st.width, f, prevCursor);
        Built(p + Ellipsis, false, CacheColor(st))
      else
        Built(line, true, CacheColor(st))
  }

  /** Single-line mode with a cut newline always abbreviates, even when the
      first line alone would fit. */
  lemma CutNewlineForcesEllipsis(st: TextState, font: Font, toUpper: string -> string, prevCursor: string -> nat)
    requires CursorRetreats(prevCursor)
    requires !st.uppercase && !IsMultiline(st, font) && st.width != 0.0
    requires st.text != [] && st.text[0] != '\n' && '\n' in st.text
    ensures var r := Layout(st, Some(font), toUpper, prevCursor);
      r.Built? && !r.wrapped && Ellipsis <= r.content[|r.content| - |Ellipsis|..]
      && r.content[..|r.content| - |Ellipsis|] <= FirstLine(st.text)
  {
    var line := FirstLine(st.text);
    assert line != [] by {
      assert st.text[0] != '\n';
      assert [st.text[0]] + FirstLine(st.text[1..]) == line;
    }
    assert line != st.text;
  }


  /** `calculateExtent`: an automatic width takes the whole measured size
      of the shown text; an automatic height alone takes the height of the
      text wrapped to the fixed width; a fixed size is kept. */
  function CalculateExtent(st: TextState, font: Font, toUpper: string -> string): (r: TextState)
    ensures st.autoWidth ==> Extent(r.width, r.height) == font.sizeText(Shown(st, toUpper), st.lineSpacing)
    ensures !st.autoWidth && st.autoHeight ==>
      r.width == st.width && r.height == font.wrappedHeight(Shown(st, toUpper), st.width, st.lineSpacing)
    ensures !st.autoWidth && !st.autoHeight ==> r.width == st.width && r.height == st.height
    ensures r == st.(width := r.width, height := r.height)
  {
    if st.autoWidth then
      var e := font.sizeText(Shown(st, toUpper), st.lineSpacing);
      st.(width := e.width, height := e.height)
    else if st.autoHeight then
      st.(height := font.wrappedHeight(Shown(st, toUpper), st.width, st.lineSpacing))
    else st
  }

  /** A calculated extent is stable: calculating it again changes nothing,
      since it depends only on the text, the spacing and the fixed width. */
  lemma CalculateExtentSettles(st: TextState, font: Font, toUpper: string -> string)
    ensures CalculateExtent(CalculateExtent(st, font, toUpper), font, toUpper) == CalculateExtent(st, font, toUpper)
  {
    var once := CalculateExtent(st, font, toUpper);
    assert Shown(once, toUpper) == Shown(st, toUpper);
  }

  datatype TextFault = NullFontDereference

  /** `onTextChanged`: the extent is calculated, which dereferences the
      font whenever an extent is automatic, and the cache is rebuilt from
      the result. */
  function TextChanged(st: TextState, font: Option<Font>, toUpper: string -> string, prevCursor: string -> nat): (r: Result<TextState, TextFault>)
    requires CursorRetreats(prevCursor)
    ensures r.Failure? <==> font.None? && (st.autoWidth || st.autoHeight)
    ensures r.Success? && font.Some? ==> r.value == CalculateExtent(st, font.value, toUpper).(cache := r.value.cache)
    ensures r.Success? && font.None? ==> r.value == st.(cache := NoCache)
    ensures r.Success? ==> r.value.cache == Layout(r.value, font, toUpper, prevCursor)
  {
    if font.None? then
      if st.autoWidth || st.autoHeight then Failure(NullFontDereference)
      else Success(st.(cache := NoCache))
    else
      var sized := CalculateExtent(st, font.value, toUpper);
      Success(sized.(cache := Layout(sized, font, toUpper, prevCursor)))
  }

  /** Re-running `onTextChanged` on its own result changes nothing: the
      extent and the cache are functions of the other fields. */
  lemma TextChangedSettles(st: TextState, font: Option<Font>, toUpper: string -> string, prevCursor: string -> nat)
    requires CursorRetreats(prevCursor)
    requires TextChanged(st, font, toUpper, prevCursor).Success?
    ensures var once := TextChanged(st, font, toUpper, prevCursor).value;
      TextChanged(once, font, toUpper, prevCursor) == Success(once)
  {
    var once := TextChanged(st, font, toUpper, prevCursor).value;
    if font.Some? {
      var sized := CalculateExtent(st, font.value, toUpper);
      CalculateExtentSettles(st, font.value, toUpper);
      assert CalculateExtent(once, font.value, toUpper) == CalculateExtent(sized, font.value, toUpper).(cache := once.cache);
    }
  }

  /** `onSizeChanged`: each extent becomes automatic iff the size is zero
      along it, and the text is laid out again under the new flags. */
  function OnSizeChanged(st: TextState, font: Option<Font>, toUpper: string -> string, prevCursor: string -> nat): (r: Result<TextState, TextFault>)
    requires CursorRetreats(prevCursor)
    ensures r.Failure? <==> font.None? && (st.width == 0.0 || st.height == 0.0)
    ensures r.Success? ==> (r.value.autoWidth <==> st.width == 0.0) && (r.value.autoHeight <==> st.height == 0.0)
    ensures r.Success? && st.width == 0.0 ==>
      Extent(r.value.width, r.value.height) == font.value.sizeText(Shown(st, toUpper), st.lineSpacing)
    ensures r.Success? && st.width != 0.0 && st.height == 0.0 ==>
      r.value.width == st.width && r.value.height == font.value.wrappedHeight(Shown(st, toUpper), st.width, st.lineSpacing)
    ensures r.Success? && st.width != 0.0 && st.height != 0.0 ==> r.value.width == st.width && r.value.height == st.height
    ensures r.Success? ==> r.value.cache == Layout(r.value, font, toUpper, prevCursor)
    ensures r.Success? ==> r.value == st.(autoWidth := r.value.autoWidth, autoHeight := r.value.autoHeight,
                                          width := r.value.width, height := r.value.height, cache := r.value.cache)
  {
    TextChanged(st.(autoWidth := st.width == 0.0, autoHeight := st.height == 0.0), font, toUpper, prevCursor)
  }

  /** The two colour paths of the cache disagree: a fade recolours an
      existing cache with the scaled text colour, while a rebuild draws it
      with the component opacity as alpha. After `setOpacity(255)` on a
      text colour of alpha 0x80, the cache draws at 0x80 until the next
      re-layout and at 0xFF after it. */
  lemma CacheAlphaDependsOnPath(st: TextState, font: Font, toUpper: string -> string, prevCursor: string -> nat, scale: (u8, u8) -> u8)
    requires CursorRetreats(prevCursor) && ScaleLaws(scale)
    requires st.cache.Built? && st.colorOpacity == 0x80 && st.text != []
    ensures var faded := SetOpacity(st, 255, scale);
      && Alpha(faded.cache.color) == 0x80
      && Alpha(TextChanged(faded, Some(font), toUpper, prevCursor).value.cache.color) == 0xFF
  {
  }

  /** Theme properties a caller can ask `applyTheme` to apply. */
  datatype ThemeFlag = ColorFlag | AlignmentFlag | TextFlag | ForceUppercaseFlag | LineSpacingFlag

  /** One `text` element of a theme, its properties grouped by type. */
  datatype ThemeElement = ThemeElement(
    colors: map<string, u32>,
    strings: map<string, string>,
    bools: map<string, bool>,
    floats: map<string, real>)

  function AlignmentName(a: Alignment): string {
    match a
    case AlignLeft => "left"
    case AlignCenter => "center"
    case AlignRight => "right"
  }

  /** The alignment names `applyTheme` understands; any other string is
      logged and ignored. */
  function ParseAlignment(s: string): (r: Option<Alignment>)
    ensures r.Some? ==> AlignmentName(r.value) == s
    ensures r.None? ==> forall a :: AlignmentName(a) != s
  {
    if s == "left" then Some(AlignLeft)
    else if s == "center" then Some(AlignCenter)
    else if s == "right" then Some(AlignRight)
    else None
  }

  lemma ParseAlignmentRoundTrip(a: Alignment)
    ensures ParseAlignment(AlignmentName(a)) == Some(a)
  {
  }


  /** The properties `applyTheme` sets from an element, before the final
      re-layout: the background is switched off and back on only when
      colours are requested and the element has a background colour; the
      other requested properties present in the element are applied, and
      an unknown alignment name is ignored. The extent, the auto flags and
      the opacity are not theme properties here. */
  function ThemeProperties(st: TextState, e: ThemeElement, props: set<ThemeFlag>): (r: TextState)
    ensures r.renderBackground <==> ColorFlag in props && "backgroundColor" in e.colors
    ensures ColorFlag in props && "color" in e.colors ==> r.color == e.colors["color"] && r.colorOpacity == Alpha(r.color)
    ensures !(ColorFlag in props && "color" in e.colors) ==> r.color == st.color && r.colorOpacity == st.colorOpacity
    ensures ColorFlag in props && "backgroundColor" in e.colors ==>
      r.bgColor == e.colors["backgroundColor"] && r.bgColorOpacity == Alpha(r.bgColor)
    ensures !(ColorFlag in props && "backgroundColor" in e.colors) ==>
      r.bgColor == st.bgColor && r.bgColorOpacity == st.bgColorOpacity
    ensures AlignmentFlag in props && "alignment" in e.strings && ParseAlignment(e.strings["alignment"]).Some? ==>
      AlignmentName(r.alignment) == e.strings["alignment"]
    ensures !(AlignmentFlag in props && "alignment" in e.strings && ParseAlignment(e.strings["alignment"]).Some?) ==>
      r.alignment == st.alignment
    ensures r.text == (if TextFlag in props && "text" in e.strings then e.strings["text"] else st.text)
    ensures r.uppercase == (if ForceUppercaseFlag in props && "forceUppercase" in e.bools then e.bools["forceUppercase"] else st.uppercase)
    ensures r.lineSpacing == (if LineSpacingFlag in props && "lineSpacing" in e.floats then e.floats["lineSpacing"] else st.lineSpacing)
    ensures r.opacity == st.opacity && r.width == st.width && r.height == st.height
    ensures r.autoWidth == st.autoWidth && r.autoHeight == st.autoHeight
    ensures r.cache.Built? <==> st.cache.Built?
  {
    ApplyTextProperties(ApplyAlignment(ApplyColors(st, e, props), e, props), e, props)
  }

  /** Setting the same theme properties twice is the same as setting them once. */
  lemma ThemePropertiesIdempotent(st: TextState, e: ThemeElement, props: set<ThemeFlag>)
    ensures ThemeProperties(ThemeProperties(st, e, props), e, props) == ThemeProperties(st, e, props)
  {
    var once := ThemeProperties(st, e, props);
    var twice := ThemeProperties(once, e, props);
    if AlignmentFlag in props && "alignment" in e.strings && ParseAlignment(e.strings["alignment"]).Some? {
      ParseAlignmentRoundTrip(once.alignment);
      ParseAlignmentRoundTrip(twice.alignment);
    }
    assert twice.color == once.color && twice.colorOpacity == once.colorOpacity;
    assert twice.bgColor == once.bgColor && twice.bgColorOpacity == once.bgColorOpacity;
    assert twice.alignment == once.alignment;
    assert twice.renderBackground == once.renderBackground;
    assert twice.cache == once.cache;
  }

  /** Whether `applyTheme` calls one of the setters that lay the text out
      again before it sets the font: a recognised alignment, the text,
      forced upper case or the line spacing, requested and present. */
  predicate RelayoutsBeforeFont(e: ThemeElement, props: set<ThemeFlag>) {
    || (AlignmentFlag in props && "alignment" in e.strings && ParseAlignment(e.strings["alignment"]).Some?)
    || (TextFlag in props && "text" in e.strings)
    || (ForceUppercaseFlag in props && "forceUppercase" in e.bools)
    || (LineSpacingFlag in props && "lineSpacing" in e.floats)
  }

  /** `applyTheme` for the text-specific properties. Without an element
      nothing changes. Otherwise the properties are set one by one, each
      setter of the layout re-running `onTextChanged` with the font the
      widget had (`oldFont`), and the call ends by setting `font` (the
      theme's font, or the old one) and laying the text out once more. The
      last re-layout decides the extent and the cache, so only a fault on
      an earlier one is visible. */
  function ApplyTheme(st: TextState, elem: Option<ThemeElement>, props: set<ThemeFlag>, oldFont: Option<Font>,
                      font: Option<Font>, toUpper: string -> string, prevCursor: string -> nat): (r: Result<TextState, TextFault>)
    requires CursorRetreats(prevCursor)
    ensures elem.None? ==> r == Success(st)
    ensures elem.Some? ==>
      (r.Failure? <==> (st.autoWidth || st.autoHeight)
                       && (font.None? || (oldFont.None? && RelayoutsBeforeFont(elem.value, props))))
    ensures elem.Some? && r.Success? ==>
      var set_ := ThemeProperties(st, elem.value, props);
      && r.value == set_.(width := r.value.width, height := r.value.height, cache := r.value.cache)
      && r.value.cache == Layout(r.value, font, toUpper, prevCursor)
    ensures elem.Some? && r.Success? && font.None? ==> r.value.width == st.width && r.value.height == st.height
    ensures elem.Some? && r.Success? && font.Some? ==>
      var set_ := ThemeProperties(st, elem.value, props);
      Extent(r.value.width, r.value.height) == Extent(CalculateExtent(set_, font.value, toUpper).width,
                                                      CalculateExtent(set_, font.value, toUpper).height)
  {
    if elem.None? then Success(st)
    else
      var e := elem.value;
      if oldFont.None? && RelayoutsBeforeFont(e, props) && (st.autoWidth || st.autoHeight) then
        Failure(NullFontDereference)
      else
        TextChanged(ThemeProperties(st, e, props), font, toUpper, prevCursor)
  }

  /** The theme properties do not read the extent or the cache. */
  lemma ThemePropertiesIgnoreExtent(st: TextState, w: real, h: real, c: Cache, e: ThemeElement, props: set<ThemeFlag>)
    ensures var r := ThemeProperties(st.(width := w, height := h, cache := c), e, props);
      r == ThemeProperties(st, e, props).(width := w, height := h, cache := r.cache)
  {
  }

  /** `onTextChanged` rebuilds the cache without reading the old one. */
  lemma TextChangedIgnoresCache(st: TextState, c: Cache, font: Option<Font>, toUpper: string -> string, prevCursor: string -> nat)
    requires CursorRetreats(prevCursor)
    ensures TextChanged(st.(cache := c), font, toUpper, prevCursor) == TextChanged(st, font, toUpper, prevCursor)
  {
    if font.Some? {
      var sized := CalculateExtent(st, font.value, toUpper);
      var sized' := CalculateExtent(st.(cache := c), font.value, toUpper);
      assert Shown(st.(cache := c), toUpper) == Shown(st, toUpper);
      assert sized' == sized.(cache := c);
      LayoutIgnoresCache(sized, c, font, toUpper, prevCursor);
    }
  }

  /** The layout reads every field but the cache it replaces. */
  lemma LayoutIgnoresCache(st: TextState, c: Cache, font: Option<Font>, toUpper: string -> string, prevCursor: string -> nat)
    requires CursorRetreats(prevCursor)
    ensures Layout(st.(cache := c), font, toUpper, prevCursor) == Layout(st, font, toUpper, prevCursor)
  {
    assert Shown(st.(cache := c), toUpper) == Shown(st, toUpper);
    assert CacheColor(st.(cache := c)) == CacheColor(st);
  }

  /** Applying the same theme element again, now with the font the first
      application left, changes nothing. */
  lemma ApplyThemeIdempotent(st: TextState, elem: Option<ThemeElement>, props: set<ThemeFlag>, oldFont: Option<Font>,
                             font: Option<Font>, toUpper: string -> string, prevCursor: string -> nat)
    requires CursorRetreats(prevCursor)
    requires ApplyTheme(st, elem, props, oldFont, font, toUpper, prevCursor).Success?
    ensures var once := ApplyTheme(st, elem, props, oldFont, font, toUpper, prevCursor).value;
      ApplyTheme(once, elem, props, font, font, toUpper, prevCursor) == Success(once)
  {
    var once := ApplyTheme(st, elem, props, oldFont, font, toUpper, prevCursor).value;
    if elem.Some? {
      var e := elem.value;
      var set_ := ThemeProperties(st, e, props);
      assert once == TextChanged(set_, font, toUpper, prevCursor).value;
      assert once == set_.(width := once.width, height := once.height, cache := once.cache);
      var again := ThemeProperties(once, e, props);
      ThemePropertiesIgnoreExtent(set_, once.width, once.height, once.cache, e, props);
      ThemePropertiesIdempotent(st, e, props);
      assert again == once.(cache := again.cache);
      TextChangedIgnoresCache(once, again.cache, font, toUpper, prevCursor);
      TextChangedSettles(set_, font, toUpper, prevCursor);
    }
  }

  /** The colour part of `applyTheme`, including the background switch. */
  function ApplyColors(st: TextState, e: ThemeElement, props: set<ThemeFlag>): (r: TextState)
    ensures r.renderBackground <==> ColorFlag in props && "backgroundColor" in e.colors
    ensures ColorFlag in props && "color" in e.colors ==> r.color == e.colors["color"] && r.colorOpacity == Alpha(r.color)
    ensures !(ColorFlag in props && "color" in e.colors) ==> r.color == st.color && r.colorOpacity == st.colorOpacity
    ensures ColorFlag in props && "backgroundColor" in e.colors ==>
      r.bgColor == e.colors["backgroundColor"] && r.bgColorOpacity == Alpha(r.bgColor)
    ensures !(ColorFlag in props && "backgroundColor" in e.colors) ==> r.bgColor == st.bgColor && r.bgColorOpacity == st.bgColorOpacity
    ensures r.cache.Built? <==> st.cache.Built?
    ensures r == st.(color := r.color, colorOpacity := r.colorOpacity, bgColor := r.bgColor,
                     bgColorOpacity := r.bgColorOpacity, renderBackground := r.renderBackground, cache := r.cache)
  {
    var s1 := if ColorFlag in props && "color" in e.colors then SetColor(st, e.colors["color"]) else st;
    var s2 := s1.(renderBackground := false);
    if ColorFlag in props && "backgroundColor" in e.colors
    then SetBackgroundColor(s2, e.colors["backgroundColor"]).(renderBackground := true)
    else s2
  }

  /** The alignment part of `applyTheme`. */
  function ApplyAlignment(st: TextState, e: ThemeElement, props: set<ThemeFlag>): (r: TextState)
    ensures AlignmentFlag in props && "alignment" in e.strings && ParseAlignment(e.strings["alignment"]).Some? ==>
      AlignmentName(r.alignment) == e.strings["alignment"]
    ensures !(AlignmentFlag in props && "alignment" in e.strings && ParseAlignment(e.strings["alignment"]).Some?) ==>
      r.alignment == st.alignment
    ensures r == st.(alignment := r.alignment)
  {
    if AlignmentFlag in props && "alignment" in e.strings && ParseAlignment(e.strings["alignment"]).Some?
    then st.(alignment := ParseAlignment(e.strings["alignment"]).value)
    else st
  }

  /** Text, forced upper case and line spacing, each when requested and present. */
  function ApplyTextProperties(st: TextState, e: ThemeElement, props: set<ThemeFlag>): (r: TextState)
    ensures r.text == (if TextFlag in props && "text" in e.strings then e.strings["text"] else st.text)
    ensures r.uppercase == (if ForceUppercaseFlag in props && "forceUppercase" in e.bools then e.bools["forceUppercase"] else st.uppercase)
    ensures r.lineSpacing == (if LineSpacingFlag in props && "lineSpacing" in e.floats then e.floats["lineSpacing"] else st.lineSpacing)
    ensures r == st.(text := r.text, uppercase := r.uppercase, lineSpacing := r.lineSpacing)
  {
    var s1 := if TextFlag in props && "text" in e.strings then st.(text := e.strings["text"]) else st;
    var s2 := if ForceUppercaseFlag in props && "forceUppercase" in e.bools then s1.(uppercase := e.bools["forceUppercase"]) else s1;
    if LineSpacingFlag in props && "lineSpacing" in e.floats then s2.(lineSpacing := e.floats["lineSpacing"]) else s2
  }}
